=== FILE: README.md ===
# A verified model of the queueing-network simulator core

This project models the discrete-event simulation core of `simulador_filas_gg.js`.
That script simulates a network of G/G/c/K queues: c servers, capacity K and uniform
time ranges per queue, connected by probabilistic routing. The model covers the
network path that the script runs by default, where the configuration comes from a
YAML file. Each part of the script becomes one Dafny module:

- `RandomSource` (`random.dfy`): the random-number supply.
  - A linear congruential generator: multiplier 1664525, increment 1013904223,
    modulus 2^32, default seed 12345.
  - Three initialisation modes:
    - seed expansion: each seed restarts the generator, and its outputs are appended
      to one predefined list;
    - a literal list of numbers;
    - the default generator.
  - The predefined list is consumed in order. Once it runs out it is cleared for
    good, and draws continue from the current generator state without reseeding.
  - Every draw is counted.
  - The draw budget is chosen by the main program.
- `Scheduler` (`scheduler.dfy`): the pending-event list.
  - Scheduling appends an event and stably re-sorts the list by time.
  - Taking the next event removes the head.
- `Network` (`network.dfy`): the static network.
  - Queues are identified by their position in the queue list.
  - Routing resolution walks a source queue's table in order, adding up the
    probabilities. It picks the first destination whose running total reaches the
    draw, and otherwise the exit.
- `Statistics` (`statistics.dfy`): the per-queue counters and the time-in-state
  histogram. Each update charges the time elapsed since the last update to the
  occupancy held during it, growing the histogram when needed.
- `Engine` (`engine.dfy`): the simulation context.
  - The script's global variables become one immutable `Sim` value.
  - The arrival and departure handlers become pure steps on it.
  - The main loop is bounded by a fuel parameter.
  - The run starts with the random source initialised, the budget chosen and the
    first external arrival scheduled. It ends by flushing every queue's statistics.

The central invariant is `Engine.Consistent`. It holds for every queue:

- the occupancy never exceeds the capacity;
- the busy servers are `min(occupancy, servers)`;
- the pending departures of that queue are exactly its busy servers;
- the histogram has `capacity + 1` entries, and they add up to the queue's last
  update time.

Both handlers preserve it. As a consequence, a departure always finds a customer
and a busy server. After the final flush every histogram adds up exactly to the
final clock.

`Engine.Timely` adds that time never runs backwards: no pending event is earlier
than the clock. It holds whenever every time range has 0 ≤ lo ≤ hi and no literal number
is negative.

Times and draws are exact `real`s. The generator state is a `nat`, and the 32-bit
modulus is written out.

Two behaviours of the script are easy to miss:

- **Budget.** The choice of the draw budget (`simulador_filas_gg.js:724-728`)
  tests only that the seed list exists and that the per-seed count is non-zero.
  It never looks at how many seeds there are. The loaded seed list always exists,
  though it may be empty, so a per-seed count with no seeds gives a budget of zero.
  That run takes no step, even when literal numbers are configured.
  `RandomSource.Budget` states this in its contract.
- **No validation step.** The script never checks a loaded network before running
  it. A routing source or target that names no queue makes the script fail while
  it prints the routing (`simulador_filas_gg.js:703-704` and `711-713`), before the
  first event. So `Network.WellFormed` holds for every run that reaches the main
  loop, and the model takes it as a precondition.

## Model

| member | source | states |
|---|---|---|
| RandomSource.Step | simulador_filas_gg.js:177-181 | One generator step is (1664525·s + 1013904223) mod 2^32, so the state always stays below 2^32 |
| RandomSource.Iterate | simulador_filas_gg.js:204-208 | After at least one step from any seed the generator state is below 2^32 |
| RandomSource.IterateSucc | simulador_filas_gg.js:204-208 | Running the generator n+1 steps is one step after running it n steps |
| RandomSource.Fraction | simulador_filas_gg.js:239-241 | A generator state read as state/2^32 is a draw in [0, 1) |
| RandomSource.Expand | simulador_filas_gg.js:204-208 | Expanding one seed yields exactly the per-seed count of values |
| RandomSource.ExpandElement | simulador_filas_gg.js:204-208 | Value j of one seed's expansion is the generator output j+1 steps after that seed |
| RandomSource.ExpandAllLength | simulador_filas_gg.js:202-209 | Seed expansion yields exactly (number of seeds) · (per-seed count) values |
| RandomSource.ExpandAllBlock | simulador_filas_gg.js:202-209 | Block k of the expanded list is exactly the expansion of seed k: each seed restarts the generator |
| RandomSource.ExpandAllElement | simulador_filas_gg.js:202-209 | Value k·n+j of the expanded list is the generator output j+1 steps after seed k |
| RandomSource.ExpandSeed | simulador_filas_gg.js:204-208 | The inner expansion loop appends exactly one seed's expansion and leaves the generator state n steps after the seed |
| RandomSource.ExpandSeeds | simulador_filas_gg.js:202-209 | The loop over the seeds builds exactly the concatenated expansions and leaves the last seed's final state in the generator |
| RandomSource.ExpandUnit | simulador_filas_gg.js:206-207 | Every value of one seed's expansion lies in [0, 1) |
| RandomSource.ExpandAllUnit | simulador_filas_gg.js:202-209 | Every value of a seed expansion lies in [0, 1) |
| RandomSource.Init | simulador_filas_gg.js:186-224 | Initialisation resets the counters. Seeds plus a per-seed count select seed expansion, which produces seeds·count values and leaves the last seed's state. Otherwise literal numbers are copied with the state left at 12345. Otherwise the list is empty and the state is 12345 |
| RandomSource.InitNonNegative | simulador_filas_gg.js:186-224 | With non-negative literal numbers the initial source can never yield a negative draw |
| RandomSource.Budget | simulador_filas_gg.js:724-728 | The budget equals the expanded count (which is positive) in seed mode, the literal count with literal numbers alone, and 100000 with neither. A per-seed count with an empty seed list gives budget zero |
| RandomSource.Next | simulador_filas_gg.js:226-242 | Every draw adds exactly one to the count. While unused values remain they are returned in index order. Otherwise the list is cleared and the result is the next generator output from the current state. Non-negative sources stay non-negative |
| RandomSource.Uniform | simulador_filas_gg.js:244-246 | A uniform draw takes exactly one draw, and for lo ≤ hi and an underlying draw in [0, 1] it lies in [lo, hi] |
| RandomSource.UniformRecoversDraw | simulador_filas_gg.js:244-246 | The uniform value is the underlying draw scaled into the range: a one-point range gives its point, and for lo ≠ hi (value − lo)/(hi − lo) is exactly the draw |
| RandomSource.Draws | simulador_filas_gg.js:226-242 | k successive draws return k values and add exactly k to the count |
| RandomSource.ExhaustionFallsBack | simulador_filas_gg.js:226-241 | The remaining predefined values come out in order. The next draw is the generator step from the unchanged state, after which the list is empty for good |
| RandomSource.GeneratorDraws | simulador_filas_gg.js:238-241 | Once no list is in use, draw j is the generator output j+1 steps after the current state |
| RandomSource.LiteralFallback | simulador_filas_gg.js:211-216 | With literal numbers, the draws are exactly those numbers followed by the first output of the default generator from seed 12345: there is no reseeding |
| RandomSource.SeedFallback | simulador_filas_gg.js:202-209 | With seed expansion, the draw after the expanded values continues the last seed's own sequence |
| Scheduler.InsertionPoint | simulador_filas_gg.js:281-283 | The stable insertion point of time t has every earlier event at or before t, and the event there (if any) after t |
| Scheduler.InsertSpec | simulador_filas_gg.js:281-283 | Insertion adds exactly the new event and keeps a time-sorted list sorted |
| Scheduler.SortByTimeSpec | simulador_filas_gg.js:283 | The stable sort yields a time-sorted permutation of its input |
| Scheduler.SortSortedIsIdentity | simulador_filas_gg.js:283 | Sorting an already sorted list leaves it unchanged, so equal times keep their order |
| Scheduler.ScheduleAppends | simulador_filas_gg.js:281-284 | Scheduling is the sort of the old list with the new event appended, the push then sort of the script. This only unfolds the definitions; that the sort is stable and sorted is stated by `Scheduler.ScheduleSpec` and `Scheduler.SortSortedIsIdentity` |
| Scheduler.ScheduleSpec | simulador_filas_gg.js:281-284 | After scheduling, the list is sorted by time and is the old list plus the new event. On a sorted list the new event lands after every event whose time is at most its own and before every later one, with the old events in their order |
| Scheduler.Pop | simulador_filas_gg.js:286-288 | Taking the next event removes exactly the head and leaves the rest. On a sorted list the head is the earliest and the rest stays sorted |
| Scheduler.PendingDeparturesSchedule | simulador_filas_gg.js:281-284 | Scheduling adds one pending departure of a queue exactly when the event is a departure of that queue |
| Scheduler.ScheduleKeeps | simulador_filas_gg.js:281-284 | Scheduling an event no earlier than t keeps every event at or after t, and an event of a known queue keeps every event naming a known queue |
| Network.SelectIsFirstCovering | simulador_filas_gg.js:516-528 | The routing walk returns the first destination whose cumulative probability reaches the draw, and the exit when none does |
| Network.SelectListed | simulador_filas_gg.js:516-528 | The routing walk returns the exit or a destination listed in the table |
| Network.Resolve | simulador_filas_gg.js:509-529 | With no table the result is the exit and no draw is taken. Otherwise exactly one draw is taken and the result is the first destination covering it, or the exit. The result is always the exit or a listed destination |
| Network.FirstExternal | simulador_filas_gg.js:731 | Finds the first queue with external arrivals: every earlier queue has none |
| Statistics.Grow | simulador_filas_gg.js:402-405 | The histogram grows with zero entries until the occupancy is a valid index, and keeps its old entries and its total |
| Statistics.GrowHistogram | simulador_filas_gg.js:402-405 | The push-zeros loop computes exactly that growth |
| Statistics.Fresh | simulador_filas_gg.js:320-338 | A queue starts empty, idle, without losses, last updated at 0, with capacity+1 zero entries summing to 0 |
| Statistics.RecordElapsed | simulador_filas_gg.js:397-409 | The histogram never shrinks and ends longer than the occupancy. Only the entry at the occupancy changes, by exactly now minus the last update. The total grows by that amount and the last update becomes now |
| Engine.MaybeStartEvents | simulador_filas_gg.js:548-560 | When a server starts, one service draw is taken and the pending events gain exactly the customer's departure at the current time plus that draw. Otherwise the random source and the pending events are unchanged |
| Engine.Admit | simulador_filas_gg.js:543-577 | The elapsed time is charged to the histogram entry of the occupancy before the arrival. The customer is admitted iff the queue is below capacity, else counted as lost. A server starts iff one is free at admission: one service draw and exactly the customer's departure scheduled at the current time plus it. Otherwise nothing is drawn or scheduled. Other queues stay |
| Engine.ThenContinue | simulador_filas_gg.js:579-590 | For a queue with external arrivals, while the draw count is below the budget, the pending events gain exactly the arrival of the next fresh id at the current time plus one interarrival draw, the fresh-id counter rises by one, and the random source is left after that draw. Otherwise the random source, the fresh-id counter and the pending events are unchanged |
| Engine.OnArrival | simulador_filas_gg.js:531-591 | An arrival is admitted iff the queue is below capacity: occupancy+1 with losses kept, else losses+1 with occupancy kept. The elapsed time is charged to the histogram entry of the occupancy before the arrival. A server starts iff one is free, taking one draw. The next external arrival takes one more draw and a fresh id iff the queue has external arrivals and the count is below the budget. Other queues and the clock stay |
| Engine.ArrivalEvents | simulador_filas_gg.js:543-590 | The pending events after an arrival are the old ones plus exactly: the customer's departure at the current time plus the service draw when a server starts, and the next fresh id's arrival at the current time plus the interarrival draw when the stream goes on. The random source is left after exactly those draws, and the fresh-id counter rises by one exactly when the stream goes on |
| Engine.Release | simulador_filas_gg.js:604-629 | The elapsed time is charged to the histogram entry of the occupancy before the departure, and the occupancy falls by one. If customers still wait, one service draw schedules exactly the departure of id nextId − (occupancy − servers + 1) at the current time plus the draw. Otherwise one server goes idle and nothing is drawn or scheduled |
| Engine.RouteEvents | simulador_filas_gg.js:631-645 | The random source is left after exactly the routing resolution. When the customer leaves the system the pending events are unchanged; when it is routed to a queue they gain exactly its arrival there at the current time |
| Engine.OnDeparture | simulador_filas_gg.js:593-646 | A departure lowers the occupancy by one and charges the elapsed time to the histogram entry of the occupancy before it. A waiting customer keeps the server busy and takes one service draw; otherwise one server goes idle. One routing draw is taken iff the queue has a table. Ids, losses, the clock and other queues stay |
| Engine.DepartureEvents | simulador_filas_gg.js:604-645 | The pending events after a departure are the old ones plus exactly: the waiting customer's departure at the current time plus the service draw when a customer waits, and the customer's arrival at the resolved queue at the current time when routing picks a queue. The random source is left after exactly those draws, and the fresh-id counter is unchanged |
| Engine.AdmitQueueInv | simulador_filas_gg.js:545-577 | Admission keeps the capacity bound and busy = min(occupancy, servers), with one more pending departure exactly when a server starts |
| Engine.AdmitKeeps | simulador_filas_gg.js:543-577 | The admission part of an arrival keeps the whole context consistent |
| Engine.ContinueStreamKeeps | simulador_filas_gg.js:579-590 | Scheduling the next external arrival keeps the context consistent |
| Engine.ReleaseQueueInv | simulador_filas_gg.js:604-629 | A queue with a pending departure has a customer and a busy server, and releasing it keeps its invariant, with a new departure exactly when a customer was waiting |
| Engine.ReleaseKeeps | simulador_filas_gg.js:604-629 | At every departure a customer and a busy server are present, and the release part keeps the context consistent |
| Engine.RouteKeeps | simulador_filas_gg.js:631-645 | Routing a customer onward keeps the context consistent |
| Engine.OnArrivalKeeps | simulador_filas_gg.js:531-591 | The arrival handler keeps capacity, busy-server and pending-departure accounting for every queue |
| Engine.OnDepartureKeeps | simulador_filas_gg.js:593-646 | The departure handler finds occupancy ≥ 1 and a busy server, and keeps the accounting for every queue |
| Engine.PopKeeps | simulador_filas_gg.js:838-839 | Taking the head event names a queue of the network, and a taken departure is still counted by its queue until handled |
| Engine.StepTimely | simulador_filas_gg.js:837-849 | When every range has 0 ≤ lo ≤ hi and every draw is non-negative, one iteration never moves the clock back and leaves no event before the clock |
| Engine.StepEvents | simulador_filas_gg.js:837-849 | One iteration takes the head event off the list, sets the clock to its time and handles it at its queue: an arrival gains exactly the arrival handler's events and draws and changes the queue's counters as an arrival does, a departure likewise for the departure handler. The fresh-id counter rises by one exactly when an arrival continues its external stream, and is otherwise unchanged. No other queue changes |
| Engine.Step | simulador_filas_gg.js:837-849 | One iteration keeps the invariant, sets the clock to the popped event's time, and never lowers the fresh id or the draw count |
| Engine.Iterations | simulador_filas_gg.js:837-849 | Any number of loop iterations from a consistent context keeps the consistency invariant |
| Engine.Run | simulador_filas_gg.js:837-863 | The loop's result is exactly `Engine.Iterations` for the number of steps it took, none of the contexts before it was halted, and it stops short of the fuel only when the draw count reaches the budget or no event is pending. It takes no step once halted. Ids and draw count only grow, and from a timely start (every range with 0 ≤ lo ≤ hi, non-negative draws) time never runs backwards |
| Engine.Start | simulador_filas_gg.js:721-744 | The run starts with the random source initialised, the budget chosen and every queue fresh. If some queue has external arrivals, customer 1 arrives at the first such queue at its minimum interarrival time and the clock is set there. Otherwise nothing is pending |
| Engine.StartConsistent | simulador_filas_gg.js:731-744 | For a well-formed network the initial context satisfies the consistency invariant: empty idle queues and no pending departure |
| Engine.StartTimely | simulador_filas_gg.js:731-744 | The initial context is timely when every range has 0 ≤ lo ≤ hi and no literal number is negative |
| Engine.Flush | simulador_filas_gg.js:873-876 | The final flush charges each queue's time since its last update to the histogram entry of its occupancy, leaves every other entry (new entries are zero), and brings every queue up to the final clock, keeping occupancies and losses |
| Engine.FlushAccounts | simulador_filas_gg.js:873-876 | Flushing a consistent context leaves every histogram adding up exactly to the clock with capacity+1 entries, and no queue above its capacity |
| Engine.Simulate | simulador_filas_gg.js:721-876 | A whole run is the final flush of `Engine.Iterations` from the initial context, for at most the fuel's number of steps, stopping short only when halted. Every queue's histogram then adds up exactly to the final clock and has capacity+1 entries, and no queue exceeds its capacity |

## Left out

- Configuration loading (`parseYAML`, `converterConfigYAML`): file reading and line-matching
  are I/O. The model takes an already built `Network.Net` and `RandomSource.RandomConfig`. The
  loader's defaults (one server, capacity 50, `exit` as the leaving destination) are assumed
  already applied. A `minArrival` of 0 turning into "no arrivals" is not modelled.
- The missing-file error path of `main` (`simulador_filas_gg.js:661-664`) is configuration loading and is left out.
- Network.WellFormed: the model requires every routing target to name a queue. The script does
  not check this, but it fails on a dangling source or target while printing the routing
  (`simulador_filas_gg.js:703-704`, `711-713`), so every run that reaches the loop satisfies it.
- Integer-like queue names: the routing walk turns a destination such as `"2"` into the number 2
  (`simulador_filas_gg.js:523`). The strict-equality queue lookup (`simulador_filas_gg.js:503`)
  then finds no queue, and the arrival handler fails on the missing queue
  (`simulador_filas_gg.js:540`). The model identifies queues by position and does not reproduce
  this failure.
- Console output, the progress message inside the loop, and the result reports: these are I/O
  and floating-point formatting.
- Identifier handling: the key coercion in the routing walk (`isNaN`/`parseInt`) and the lookup of a
  queue by id are replaced by positions in the queue list.
- Routing tables and the queue list are given in the enumeration order of the script's object
  keys (integer-like keys ascending, then the rest in insertion order;
  `simulador_filas_gg.js:346`, `516`). That ordering is left to the caller. It matters:
  `Network.FirstExternal` picks the first queue in that order.
- IEEE-754 rounding of times and of literal numbers: the model uses exact reals. A generator
  draw state/2^32 needs no rounding, because the state is an integer below 2^32 and the divisor
  is a power of two. Sums of times, scaled uniform values and literal numbers can round in the
  script, so the conservation "histogram total equals the final clock" is exact only in the model.
- Generator arithmetic beyond 2^53: seeds are assumed small enough that the script computes
  the step exactly, as it does for every state below 2^32.
- The waiting customer's id at a departure (`simulador_filas_gg.js:613-614`) is reproduced as
  written. The model does not claim it names the customer who actually waited longest.
- Engine.Run: the loop is bounded by a fuel parameter, because same-instant routing cycles can
  keep the real loop running forever. Termination of a run is not modelled.
- Engine.Step: requires the consistency invariant, which the script never checks. `Engine.StartConsistent`
  and `Engine.Run` show it holds at every iteration of a run on a well-formed network.
- Engine.Simulate: requires a well-formed network (see `Network.WellFormed` above).
- RandomSource.RandomConfig: a negative per-seed count (truthy in the script, expanding nothing) is not
  representable; an absent or zero count is 0.
- Engine.Release: requires a customer present and a busy server at the departing queue, which
  the script does not check. `Engine.ReleaseKeeps` proves both hold at every departure of a
  consistent run.
- Engine.OnDeparture: requires a customer present and a busy server, which the script does not
  check. `Engine.OnDepartureKeeps` proves both hold at every departure of a consistent run.
- Every arrival at a queue with an external arrival range schedules a new external arrival,
  including a customer routed there from another queue. This is modelled as written.
- The single-queue mode (`modoSimulacao = "individual"`) and the hard-coded network mode: both
  are unreachable with the fixed mode `"yaml"` (`simulador_filas_gg.js:118`).

=== FILE: engine.dfy ===
/** The simulation engine of the network mode: the simulation context, the
    arrival and departure handlers as pure steps on it, the main loop, and
    the final statistics flush. */
module Engine {
  import opened RandomSource
  import opened Scheduler
  import opened Statistics
  import opened Network

  /** The simulation context: the clock, the random source, the draw budget,
      the pending events, the next fresh customer id, and the state of every
      queue (in the order of the network's queue list). */
  datatype Sim = Sim(
    clock: real,
    rng: Rng,
    budget: nat,
    scheduler: seq<Event>,
    nextId: int,
    queues: seq<QueueState>)

  function Min(a: nat, b: nat): nat
  {
    if a <= b then a else b
  }

  /** What holds of one queue between events: the occupancy is within the
      capacity, the busy servers are as many as the customers present up to
      the server count, each busy server has exactly one pending departure,
      the histogram has one entry per occupancy level, and its total equals
      the last update time. */
  predicate QueueInv(q: Queue, st: QueueState, pending: nat)
  {
    && st.occupancy <= q.capacity
    && st.busy == Min(st.occupancy, q.servers)
    && pending == st.busy
    && |st.timeInState| == q.capacity + 1
    && Sum(st.timeInState) == st.lastUpdate
  }

  /** The context is consistent with the network. `owed` names the queue
      whose departure event has been taken from the scheduler but not yet
      handled (or is -1 when there is none): that queue counts it as still
      pending. */
  predicate Consistent(net: Net, sim: Sim, owed: int)
  {
    && WellFormed(net)
    && |sim.queues| == |net.queues|
    && Sorted(sim.scheduler)
    && Targets(sim.scheduler, |net.queues|)
    && forall i :: 0 <= i < |net.queues| ==>
         QueueInv(net.queues[i], sim.queues[i],
                  PendingDepartures(sim.scheduler, i) + (if i == owed then 1 else 0))
  }

  predicate Invariant(net: Net, sim: Sim)
  {
    Consistent(net, sim, -1)
  }

  // ---------------------------------------------------------------------
  // Building blocks of the handlers

  function WithQueue(sim: Sim, j: nat, st: QueueState): Sim
    requires j < |sim.queues|
  {
    sim.(queues := sim.queues[j := st])
  }

  /** A server of queue `j` takes `customer`: one service time is drawn
      from the queue's range, and the customer's departure is scheduled at
      the current time plus that draw. Nothing else changes. */
  function StartService(q: Queue, sim: Sim, customer: int, j: nat): (r: Sim)
    ensures r.queues == sim.queues && r.clock == sim.clock && r.nextId == sim.nextId && r.budget == sim.budget
    ensures var service := Uniform(sim.rng, q.service.lo, q.service.hi);
            var dep := Event(Departure, sim.clock + service.0, customer, j);
            && r.rng == service.1
            && r.scheduler == Schedule(sim.scheduler, dep)
  {
    var service := Uniform(sim.rng, q.service.lo, q.service.hi);
    sim.(rng := service.1, scheduler := Schedule(sim.scheduler, Event(Departure, sim.clock + service.0, customer, j)))
  }

  /** A server of queue `j` takes `customer` when `starts`; otherwise
      nothing changes. */
  function MaybeStart(q: Queue, sim: Sim, starts: bool, customer: int, j: nat): Sim
  {
    if starts then StartService(q, sim, customer, j) else sim
  }

  /** The draws and events of `MaybeStart`: one service draw and the
      customer's departure at the current time plus that draw when a server
      starts, nothing otherwise. */
  lemma MaybeStartEvents(q: Queue, sim: Sim, starts: bool, customer: int, j: nat)
    ensures var r := MaybeStart(q, sim, starts, customer, j);
            var service := Uniform(sim.rng, q.service.lo, q.service.hi);
            && r.queues == sim.queues && r.clock == sim.clock && r.nextId == sim.nextId && r.budget == sim.budget
            && r.rng == (if starts then service.1 else sim.rng)
            && multiset(r.scheduler)
               == multiset(sim.scheduler)
                  + (if starts then multiset{Event(Departure, sim.clock + service.0, customer, j)} else multiset{})
  {
    var service := Uniform(sim.rng, q.service.lo, q.service.hi);
    var dep := Event(Departure, sim.clock + service.0, customer, j);
    if starts {
      ScheduleCounts(sim.scheduler, dep);
    }
  }

  // ---------------------------------------------------------------------
  // Arrival handler

  /** Whether an arriving customer finds room and a free server. */
  predicate Starts(q: Queue, st: QueueState)
  {
    st.occupancy < q.capacity && st.busy < q.servers
  }

  /** The counters of a queue after an arrival: one more customer (and one
      more busy server when one is free) if there is room, one more loss
      otherwise. */
  function AdmitQueue(q: Queue, st: QueueState): QueueState
  {
    if st.occupancy < q.capacity then
      if st.busy < q.servers then st.(occupancy := st.occupancy + 1, busy := st.busy + 1)
      else st.(occupancy := st.occupancy + 1)
    else st.(lost := st.lost + 1)
  }

  /** First part of an arrival. The time since the last update is charged to
      the occupancy held before the arrival. Then the customer is admitted
      if the queue is below capacity, or counted as lost. An admitted
      customer who finds a free server starts service at once: one service
      draw, and its departure is scheduled at the current time plus that
      draw. Otherwise nothing is drawn or scheduled. */
  function Admit(q: Queue, sim: Sim, e: Event): (r: Sim)
    requires e.queue < |sim.queues|
    ensures |r.queues| == |sim.queues| && r.clock == sim.clock && r.nextId == sim.nextId && r.budget == sim.budget
    ensures forall i :: 0 <= i < |sim.queues| && i != e.queue ==> r.queues[i] == sim.queues[i]
    ensures var before := sim.queues[e.queue];
            var after := r.queues[e.queue];
            && after.timeInState == RecordElapsed(before, sim.clock).timeInState
            && after.lastUpdate == sim.clock
            && (before.occupancy < q.capacity ==>
                  after.occupancy == before.occupancy + 1 && after.lost == before.lost)
            && (before.occupancy >= q.capacity ==>
                  after.occupancy == before.occupancy && after.lost == before.lost + 1)
            && after.busy == before.busy + (if before.occupancy < q.capacity && before.busy < q.servers then 1 else 0)
    ensures var before := sim.queues[e.queue];
            var service := Uniform(sim.rng, q.service.lo, q.service.hi);
            var dep := Event(Departure, sim.clock + service.0, e.customer, e.queue);
            if before.occupancy < q.capacity && before.busy < q.servers then
              && r.rng == service.1
              && r.scheduler == Schedule(sim.scheduler, dep)
            else
              r.rng == sim.rng && r.scheduler == sim.scheduler
  {
    var st := RecordElapsed(sim.queues[e.queue], sim.clock);
    MaybeStart(q, WithQueue(sim, e.queue, AdmitQueue(q, st)), Starts(q, st), e.customer, e.queue)
  }

  /** Second part of an arrival: a queue with external arrivals, while the
      draws so far are below the budget, draws an interarrival time and
      schedules the arrival of a fresh customer id at the current time plus
      that draw. Otherwise nothing changes. */
  function ContinueStream(q: Queue, sim: Sim, e: Event): (r: Sim)
    ensures r.queues == sim.queues && r.clock == sim.clock && r.budget == sim.budget
    ensures if q.arrivals.External? && sim.rng.used < sim.budget then
              var gap := Uniform(sim.rng, q.arrivals.interval.lo, q.arrivals.interval.hi);
              var arrival := Event(Arrival, sim.clock + gap.0, sim.nextId, e.queue);
              && r.rng == gap.1
              && r.nextId == sim.nextId + 1
              && r.scheduler == Schedule(sim.scheduler, arrival)
            else
              r.rng == sim.rng && r.nextId == sim.nextId && r.scheduler == sim.scheduler
  {
    if q.arrivals.External? && sim.rng.used < sim.budget then
      var gap := Uniform(sim.rng, q.arrivals.interval.lo, q.arrivals.interval.hi);
      sim.(rng := gap.1, nextId := sim.nextId + 1,
           scheduler := Schedule(sim.scheduler, Event(Arrival, sim.clock + gap.0, sim.nextId, e.queue)))
    else sim
  }

  /** The arrival handler. The customer is admitted exactly when the queue is
      below capacity, which raises the occupancy by one and leaves the losses
      alone; otherwise the losses rise by one and the occupancy stays. The
      elapsed time is charged to the occupancy held before the arrival. A
      server starts exactly when one is free at admission: one service draw,
      and the customer's departure at the current time plus that draw. When
      the queue has external arrivals and the draws so far are below the
      budget, one more draw schedules the next arrival, for the next fresh
      id, at the current time plus that draw. No other queue changes and the
      clock stays. */
  function OnArrival(net: Net, sim: Sim, e: Event): (r: Sim)
    requires e.queue < |net.queues| == |sim.queues|
    ensures |r.queues| == |sim.queues| && r.clock == sim.clock && r.budget == sim.budget
    ensures forall i :: 0 <= i < |sim.queues| && i != e.queue ==> r.queues[i] == sim.queues[i]
    ensures var q := net.queues[e.queue];
            var before := sim.queues[e.queue];
            var after := r.queues[e.queue];
            && (before.occupancy < q.capacity ==>
                  after.occupancy == before.occupancy + 1 && after.lost == before.lost)
            && (before.occupancy >= q.capacity ==>
                  after.occupancy == before.occupancy && after.lost == before.lost + 1)
            && after.busy == before.busy + (if before.occupancy < q.capacity && before.busy < q.servers then 1 else 0)
            && after.lastUpdate == sim.clock
            && after.timeInState == RecordElapsed(before, sim.clock).timeInState
    ensures var q := net.queues[e.queue];
            var before := sim.queues[e.queue];
            var serviceDraws := if before.occupancy < q.capacity && before.busy < q.servers then 1 else 0;
            var continues := q.arrivals.External? && sim.rng.used + serviceDraws < sim.budget;
            && r.nextId == sim.nextId + (if continues then 1 else 0)
            && r.rng.used == sim.rng.used + serviceDraws + (if continues then 1 else 0)
  {
    var q := net.queues[e.queue];
    ContinueStream(q, Admit(q, sim, e), e)
  }

  /** The draws and events of an arrival, from context `sim` to `r`. A
      customer who starts service takes one service draw and has its
      departure scheduled at the current time plus that draw. Then, when the
      stream goes on, one more draw schedules the next arrival for the next
      fresh id, which is then consumed; otherwise the fresh-id counter stays.
      The pending events are the old ones plus exactly these. */
  predicate ArrivalOutcome(q: Queue, sim: Sim, e: Event, r: Sim)
    requires e.queue < |sim.queues|
  {
    var starts := Starts(q, sim.queues[e.queue]);
    var service := Uniform(sim.rng, q.service.lo, q.service.hi);
    var g := if starts then service.1 else sim.rng;
    var served := if starts then multiset{Event(Departure, sim.clock + service.0, e.customer, e.queue)} else multiset{};
    if q.arrivals.External? && g.used < sim.budget then
      var gap := Uniform(g, q.arrivals.interval.lo, q.arrivals.interval.hi);
      && r.rng == gap.1
      && r.nextId == sim.nextId + 1
      && multiset(r.scheduler)
         == multiset(sim.scheduler) + served + multiset{Event(Arrival, sim.clock + gap.0, sim.nextId, e.queue)}
    else
      && r.rng == g
      && r.nextId == sim.nextId
      && multiset(r.scheduler) == multiset(sim.scheduler) + served
  }

  lemma ArrivalEvents(net: Net, sim: Sim, e: Event)
    requires e.queue < |net.queues| == |sim.queues|
    ensures ArrivalOutcome(net.queues[e.queue], sim, e, OnArrival(net, sim, e))
  {
    ArrivalParts(net.queues[e.queue], sim, e, OnArrival(net, sim, e));
  }

  lemma ArrivalParts(q: Queue, sim: Sim, e: Event, r: Sim)
    requires e.queue < |sim.queues|
    requires var parts := ContinueStream(q, Admit(q, sim, e), e);
             r.rng == parts.rng && r.nextId == parts.nextId && r.scheduler == parts.scheduler
    ensures ArrivalOutcome(q, sim, e, r)
  {
    var a := Admit(q, sim, e);
    AdmitEvents(q, sim, e);
    ThenContinue(q, a, e);
    ComposeArrival(q, sim, a, r, e);
  }

  /** The draws and events of the admission part. */
  lemma AdmitEvents(q: Queue, sim: Sim, e: Event)
    requires e.queue < |sim.queues|
    ensures var a := Admit(q, sim, e);
            var starts := Starts(q, sim.queues[e.queue]);
            var service := Uniform(sim.rng, q.service.lo, q.service.hi);
            && a.budget == sim.budget && a.clock == sim.clock && a.nextId == sim.nextId
            && a.rng == (if starts then service.1 else sim.rng)
            && multiset(a.scheduler)
               == multiset(sim.scheduler)
                  + (if starts then multiset{Event(Departure, sim.clock + service.0, e.customer, e.queue)} else multiset{})
  {
    var st := RecordElapsed(sim.queues[e.queue], sim.clock);
    MaybeStartEvents(q, WithQueue(sim, e.queue, AdmitQueue(q, st)), Starts(q, st), e.customer, e.queue);
  }

  /** The draws and events of the stream part. */
  lemma ThenContinue(q: Queue, a: Sim, e: Event)
    ensures var r := ContinueStream(q, a, e);
            if q.arrivals.External? && a.rng.used < a.budget then
              var gap := Uniform(a.rng, q.arrivals.interval.lo, q.arrivals.interval.hi);
              && r.rng == gap.1
              && r.nextId == a.nextId + 1
              && multiset(r.scheduler) == multiset(a.scheduler) + multiset{Event(Arrival, a.clock + gap.0, a.nextId, e.queue)}
            else
              r.rng == a.rng && r.nextId == a.nextId && multiset(r.scheduler) == multiset(a.scheduler)
  {
    var arrival := if q.arrivals.External?
                   then Event(Arrival, a.clock + Uniform(a.rng, q.arrivals.interval.lo, q.arrivals.interval.hi).0, a.nextId, e.queue)
                   else e;
    ScheduledEvents(a.scheduler, ContinueStream(q, a, e).scheduler, arrival, q.arrivals.External? && a.rng.used < a.budget);
  }

  /** Chaining the two parts, with the intermediate context `a` abstract. */
  lemma ComposeArrival(q: Queue, sim: Sim, a: Sim, r: Sim, e: Event)
    requires e.queue < |sim.queues|
    requires a.budget == sim.budget && a.clock == sim.clock && a.nextId == sim.nextId
    requires var starts := Starts(q, sim.queues[e.queue]);
             var service := Uniform(sim.rng, q.service.lo, q.service.hi);
             && a.rng == (if starts then service.1 else sim.rng)
             && multiset(a.scheduler)
                == multiset(sim.scheduler)
                   + (if starts then multiset{Event(Departure, sim.clock + service.0, e.customer, e.queue)} else multiset{})
    requires if q.arrivals.External? && a.rng.used < a.budget then
               var gap := Uniform(a.rng, q.arrivals.interval.lo, q.arrivals.interval.hi);
               && r.rng == gap.1
               && r.nextId == a.nextId + 1
               && multiset(r.scheduler) == multiset(a.scheduler) + multiset{Event(Arrival, a.clock + gap.0, a.nextId, e.queue)}
             else
               r.rng == a.rng && r.nextId == a.nextId && multiset(r.scheduler) == multiset(a.scheduler)
    ensures ArrivalOutcome(q, sim, e, r)
  {
  }

  // ---------------------------------------------------------------------
  // Departure handler

  /** The counters of a queue after a departure: one customer fewer, and one
      busy server fewer unless a customer is still waiting for one. */
  function ReleaseQueue(q: Queue, st: QueueState): QueueState
    requires st.occupancy >= 1 && st.busy >= 1
  {
    if st.occupancy - 1 >= q.servers then st.(occupancy := st.occupancy - 1)
    else st.(occupancy := st.occupancy - 1, busy := st.busy - 1)
  }

  /** First part of a departure. The time since the last update is charged
      to the occupancy held before the departure, and the customer leaves.
      If customers are still waiting, the freed server takes the next one:
      one service draw, and that customer's departure at the current time
      plus the draw, for the id derived from the fresh-id counter and the
      remaining occupancy. Otherwise the server goes idle and nothing is
      drawn or scheduled. The handler assumes a customer and a busy server
      are present; `Consistent` guarantees both at every departure. */
  function Release(q: Queue, sim: Sim, e: Event): (r: Sim)
    requires e.queue < |sim.queues|
    requires sim.queues[e.queue].occupancy >= 1 && sim.queues[e.queue].busy >= 1
    ensures |r.queues| == |sim.queues| && r.clock == sim.clock && r.nextId == sim.nextId && r.budget == sim.budget
    ensures forall i :: 0 <= i < |sim.queues| && i != e.queue ==> r.queues[i] == sim.queues[i]
    ensures var before := sim.queues[e.queue];
            var after := r.queues[e.queue];
            && after.timeInState == RecordElapsed(before, sim.clock).timeInState
            && after.lastUpdate == sim.clock
            && after.occupancy == before.occupancy - 1
            && after.lost == before.lost
            && (after.occupancy >= q.servers ==> after.busy == before.busy)
            && (after.occupancy < q.servers ==> after.busy == before.busy - 1)
    ensures var occ := sim.queues[e.queue].occupancy - 1;
            var service := Uniform(sim.rng, q.service.lo, q.service.hi);
            var dep := Event(Departure, sim.clock + service.0, sim.nextId - (occ - q.servers + 1), e.queue);
            if occ >= q.servers then
              && r.rng == service.1
              && r.scheduler == Schedule(sim.scheduler, dep)
            else
              r.rng == sim.rng && r.scheduler == sim.scheduler
  {
    var st := RecordElapsed(sim.queues[e.queue], sim.clock);
    var occ := st.occupancy - 1;
    MaybeStart(q, WithQueue(sim, e.queue, ReleaseQueue(q, st)), occ >= q.servers, sim.nextId - (occ - q.servers + 1), e.queue)
  }

  /** Second part of a departure: resolve the customer's destination and, if
      it is a queue, schedule the customer's arrival there at the current
      time (routing takes no time). */
  function Route(net: Net, sim: Sim, e: Event): (r: Sim)
    ensures r.queues == sim.queues && r.clock == sim.clock && r.nextId == sim.nextId && r.budget == sim.budget
    ensures r.rng == Resolve(net.routing, e.queue, sim.rng).1
    ensures var dest := Resolve(net.routing, e.queue, sim.rng).0;
            && (dest == Exit ==> r.scheduler == sim.scheduler)
            && (dest.Node? ==> r.scheduler == Schedule(sim.scheduler, Event(Arrival, sim.clock, e.customer, dest.index)))
  {
    var resolved := Resolve(net.routing, e.queue, sim.rng);
    match resolved.0
    case Exit => sim.(rng := resolved.1)
    case Node(j) =>
      sim.(rng := resolved.1, scheduler := Schedule(sim.scheduler, Event(Arrival, sim.clock, e.customer, j)))
  }

  /** The departure handler. The occupancy falls by one and the elapsed time
      is charged to the occupancy held before the departure. When customers
      are still waiting for a server it keeps its busy count, takes one
      service draw and schedules the waiting customer's departure at the
      current time plus that draw; otherwise one server goes idle. Exactly
      one routing draw is taken when the queue has a routing table, and a
      customer routed to a queue arrives there at the current time. No other
      queue changes, and the clock and the fresh-id counter stay. */
  function OnDeparture(net: Net, sim: Sim, e: Event): (r: Sim)
    requires e.queue < |net.queues| == |sim.queues|
    requires sim.queues[e.queue].occupancy >= 1 && sim.queues[e.queue].busy >= 1
    ensures |r.queues| == |sim.queues| && r.clock == sim.clock && r.budget == sim.budget
    ensures forall i :: 0 <= i < |sim.queues| && i != e.queue ==> r.queues[i] == sim.queues[i]
    ensures var q := net.queues[e.queue];
            var before := sim.queues[e.queue];
            var after := r.queues[e.queue];
            && after.occupancy == before.occupancy - 1
            && after.lost == before.lost
            && after.lastUpdate == sim.clock
            && after.timeInState == RecordElapsed(before, sim.clock).timeInState
            && (after.occupancy >= q.servers ==> after.busy == before.busy)
            && (after.occupancy < q.servers ==> after.busy == before.busy - 1)
    ensures r.nextId == sim.nextId
    ensures var serviceDraws := if sim.queues[e.queue].occupancy - 1 >= net.queues[e.queue].servers then 1 else 0;
            var routingDraws := if e.queue in net.routing then 1 else 0;
            r.rng.used == sim.rng.used + serviceDraws + routingDraws
  {
    Route(net, Release(net.queues[e.queue], sim, e), e)
  }

  /** The draws and events of a departure, from context `sim` to `r`. When
      customers are still waiting, one service draw schedules the departure
      of the waiting customer at the current time plus that draw. Then the
      routing draw, if any, picks the destination; a customer routed to a
      queue arrives there at the current time. The pending events are the
      old ones plus exactly these, and the fresh-id counter stays. */
  predicate DepartureOutcome(net: Net, sim: Sim, e: Event, r: Sim)
    requires e.queue < |net.queues| == |sim.queues|
  {
    var q := net.queues[e.queue];
    var occ := sim.queues[e.queue].occupancy - 1;
    var service := Uniform(sim.rng, q.service.lo, q.service.hi);
    var g := if occ >= q.servers then service.1 else sim.rng;
    var served := if occ >= q.servers
                  then multiset{Event(Departure, sim.clock + service.0, sim.nextId - (occ - q.servers + 1), e.queue)}
                  else multiset{};
    var dest := Resolve(net.routing, e.queue, g);
    && r.rng == dest.1
    && r.nextId == sim.nextId
    && (dest.0 == Exit ==> multiset(r.scheduler) == multiset(sim.scheduler) + served)
    && (dest.0.Node? ==>
          multiset(r.scheduler)
          == multiset(sim.scheduler) + served + multiset{Event(Arrival, sim.clock, e.customer, dest.0.index)})
  }

  lemma DepartureEvents(net: Net, sim: Sim, e: Event)
    requires e.queue < |net.queues| == |sim.queues|
    requires sim.queues[e.queue].occupancy >= 1 && sim.queues[e.queue].busy >= 1
    ensures DepartureOutcome(net, sim, e, OnDeparture(net, sim, e))
  {
    var q := net.queues[e.queue];
    var a := Release(q, sim, e);
    ReleaseEvents(q, sim, e);
    RouteEvents(net, a, e);
    assert OnDeparture(net, sim, e) == Route(net, a, e);
    ComposeDeparture(net, sim, a, OnDeparture(net, sim, e), e);
  }

  /** The draws and events of the release part. */
  lemma ReleaseEvents(q: Queue, sim: Sim, e: Event)
    requires e.queue < |sim.queues|
    requires sim.queues[e.queue].occupancy >= 1 && sim.queues[e.queue].busy >= 1
    ensures var a := Release(q, sim, e);
            var occ := sim.queues[e.queue].occupancy - 1;
            var service := Uniform(sim.rng, q.service.lo, q.service.hi);
            && a.clock == sim.clock && a.nextId == sim.nextId
            && a.rng == (if occ >= q.servers then service.1 else sim.rng)
            && multiset(a.scheduler)
               == multiset(sim.scheduler)
                  + (if occ >= q.servers
                     then multiset{Event(Departure, sim.clock + service.0, sim.nextId - (occ - q.servers + 1), e.queue)}
                     else multiset{})
  {
    var st := RecordElapsed(sim.queues[e.queue], sim.clock);
    var occ := st.occupancy - 1;
    MaybeStartEvents(q, WithQueue(sim, e.queue, ReleaseQueue(q, st)), occ >= q.servers, sim.nextId - (occ - q.servers + 1), e.queue);
  }

  /** The draws and events of the routing part. */
  lemma RouteEvents(net: Net, a: Sim, e: Event)
    ensures var r := Route(net, a, e);
            var dest := Resolve(net.routing, e.queue, a.rng);
            && r.rng == dest.1
            && r.nextId == a.nextId
            && (dest.0 == Exit ==> multiset(r.scheduler) == multiset(a.scheduler))
            && (dest.0.Node? ==>
                  multiset(r.scheduler) == multiset(a.scheduler) + multiset{Event(Arrival, a.clock, e.customer, dest.0.index)})
  {
    var dest := Resolve(net.routing, e.queue, a.rng);
    var arrival := if dest.0.Node? then Event(Arrival, a.clock, e.customer, dest.0.index) else e;
    ScheduledEvents(a.scheduler, Route(net, a, e).scheduler, arrival, dest.0.Node?);
  }

  /** Chaining the two parts, with the intermediate context `a` abstract. */
  lemma ComposeDeparture(net: Net, sim: Sim, a: Sim, r: Sim, e: Event)
    requires e.queue < |net.queues| == |sim.queues|
    requires a.clock == sim.clock && a.nextId == sim.nextId
    requires var q := net.queues[e.queue];
             var occ := sim.queues[e.queue].occupancy - 1;
             var service := Uniform(sim.rng, q.service.lo, q.service.hi);
             && a.rng == (if occ >= q.servers then service.1 else sim.rng)
             && multiset(a.scheduler)
                == multiset(sim.scheduler)
                   + (if occ >= q.servers
                      then multiset{Event(Departure, sim.clock + service.0, sim.nextId - (occ - q.servers + 1), e.queue)}
                      else multiset{})
    requires var dest := Resolve(net.routing, e.queue, a.rng);
             && r.rng == dest.1
             && r.nextId == a.nextId
             && (dest.0 == Exit ==> multiset(r.scheduler) == multiset(a.scheduler))
             && (dest.0.Node? ==>
                   multiset(r.scheduler) == multiset(a.scheduler) + multiset{Event(Arrival, a.clock, e.customer, dest.0.index)})
    ensures DepartureOutcome(net, sim, e, r)
  {
  }

  // ---------------------------------------------------------------------
  // Invariant preservation

  /** Everything `Consistent` asks for, except the invariant of queue `j`,
      which a handler is in the middle of changing. */
  predicate ConsistentExcept(net: Net, sim: Sim, j: nat)
  {
    && WellFormed(net)
    && |sim.queues| == |net.queues|
    && j < |net.queues|
    && Sorted(sim.scheduler)
    && Targets(sim.scheduler, |net.queues|)
    && forall i :: 0 <= i < |net.queues| && i != j ==>
         QueueInv(net.queues[i], sim.queues[i], PendingDepartures(sim.scheduler, i))
  }

  /** Setting queue `j` aside: what remains of a consistent context, and
      queue `j`'s own invariant, counting its owed departure. */
  lemma Open(net: Net, sim: Sim, owed: int, j: nat)
    requires Consistent(net, sim, owed) && j < |net.queues| && (owed == -1 || owed == j)
    ensures ConsistentExcept(net, sim, j)
    ensures QueueInv(net.queues[j], sim.queues[j],
                     PendingDepartures(sim.scheduler, j) + (if owed == j then 1 else 0))
  {
  }

  /** Restoring queue `j`'s invariant makes the context consistent again. */
  lemma Close(net: Net, sim: Sim, j: nat)
    requires ConsistentExcept(net, sim, j)
    requires QueueInv(net.queues[j], sim.queues[j], PendingDepartures(sim.scheduler, j))
    ensures Consistent(net, sim, -1)
  {
  }

  lemma WithQueueExcept(net: Net, sim: Sim, j: nat, st: QueueState)
    requires ConsistentExcept(net, sim, j)
    ensures var r := WithQueue(sim, j, st);
            ConsistentExcept(net, r, j) && r.queues[j] == st && r.scheduler == sim.scheduler
  {
  }

  /** Scheduling an event of a queue of the network that is not a departure
      of another queue than `j` keeps everything but `j`'s invariant, and
      adds one pending departure to `j` exactly when it is one. */
  lemma ScheduledExcept(net: Net, sim: Sim, r: Sim, j: nat, ev: Event)
    requires ConsistentExcept(net, sim, j)
    requires ev.queue < |net.queues| && (ev.kind == Departure ==> ev.queue == j)
    requires r.queues == sim.queues && r.scheduler == Schedule(sim.scheduler, ev)
    ensures ConsistentExcept(net, r, j)
    ensures PendingDepartures(r.scheduler, j)
            == PendingDepartures(sim.scheduler, j) + (if ev.kind == Departure then 1 else 0)
  {
    ScheduleSorted(sim.scheduler, ev);
    PendingAfterSchedule(sim.scheduler, ev);
    ScheduleKeeps(sim.scheduler, ev, sim.clock, |net.queues|);
  }

  /** Starting service at queue `j` adds exactly one pending departure of
      `j` and keeps everything but `j`'s invariant. */
  lemma StartServiceExcept(net: Net, sim: Sim, j: nat, customer: int)
    requires ConsistentExcept(net, sim, j)
    ensures var r := StartService(net.queues[j], sim, customer, j);
            && ConsistentExcept(net, r, j)
            && r.queues == sim.queues
            && PendingDepartures(r.scheduler, j) == PendingDepartures(sim.scheduler, j) + 1
  {
    var q := net.queues[j];
    var dep := Event(Departure, sim.clock + Uniform(sim.rng, q.service.lo, q.service.hi).0, customer, j);
    ScheduledExcept(net, sim, StartService(q, sim, customer, j), j, dep);
  }

  /** Scheduling leaves the pending departures of every queue alone, except
      that a departure of queue `j` adds one to `j`'s count. */
  lemma PendingAfterSchedule(s: seq<Event>, e: Event)
    requires Sorted(s)
    ensures forall i: nat :: PendingDepartures(Schedule(s, e), i)
                             == PendingDepartures(s, i) + (if IsDepartureAt(e, i) then 1 else 0)
  {
    forall i: nat
      ensures PendingDepartures(Schedule(s, e), i)
              == PendingDepartures(s, i) + (if IsDepartureAt(e, i) then 1 else 0)
    {
      PendingDeparturesSchedule(s, e, i);
    }
  }

  /** The arrival's effect on one queue keeps its invariant, with one more
      pending departure exactly when a server starts. */
  lemma AdmitQueueInv(q: Queue, before: QueueState, now: real, pending: nat)
    requires QueueInv(q, before, pending) && q.servers >= 1
    ensures var st := RecordElapsed(before, now);
            QueueInv(q, AdmitQueue(q, st), pending + (if Starts(q, st) then 1 else 0))
  {
  }

  lemma AdmitKeeps(net: Net, sim: Sim, e: Event)
    requires Consistent(net, sim, -1) && e.queue < |net.queues|
    ensures Consistent(net, Admit(net.queues[e.queue], sim, e), -1)
  {
    var j := e.queue;
    var q := net.queues[j];
    Open(net, sim, -1, j);
    var st := RecordElapsed(sim.queues[j], sim.clock);
    AdmitQueueInv(q, sim.queues[j], sim.clock, PendingDepartures(sim.scheduler, j));
    var settled := WithQueue(sim, j, AdmitQueue(q, st));
    WithQueueExcept(net, sim, j, AdmitQueue(q, st));
    if Starts(q, st) {
      StartServiceExcept(net, settled, j, e.customer);
      Close(net, StartService(q, settled, e.customer, j), j);
    } else {
      Close(net, settled, j);
    }
  }

  lemma ContinueStreamKeeps(net: Net, sim: Sim, e: Event)
    requires Consistent(net, sim, -1) && e.queue < |net.queues|
    ensures Consistent(net, ContinueStream(net.queues[e.queue], sim, e), -1)
  {
    var j := e.queue;
    var q := net.queues[j];
    if q.arrivals.External? && sim.rng.used < sim.budget {
      Open(net, sim, -1, j);
      var r := ContinueStream(q, sim, e);
      var gap := Uniform(sim.rng, q.arrivals.interval.lo, q.arrivals.interval.hi);
      ScheduledExcept(net, sim, r, j, Event(Arrival, sim.clock + gap.0, sim.nextId, j));
      Close(net, r, j);
    }
  }

  /** The departure's effect on one queue keeps its invariant, with the
      departure taken off and one new departure exactly when a customer was
      waiting. A departure is only ever pending with a customer present and
      a server busy. */
  lemma ReleaseQueueInv(q: Queue, before: QueueState, now: real, pending: nat)
    requires QueueInv(q, before, pending + 1) && q.servers >= 1
    ensures before.occupancy >= 1 && before.busy >= 1
    ensures var st := RecordElapsed(before, now);
            QueueInv(q, ReleaseQueue(q, st), pending + (if st.occupancy - 1 >= q.servers then 1 else 0))
  {
  }

  lemma ReleaseKeeps(net: Net, sim: Sim, e: Event)
    requires Consistent(net, sim, e.queue) && e.queue < |net.queues|
    ensures sim.queues[e.queue].occupancy >= 1 && sim.queues[e.queue].busy >= 1
    ensures Consistent(net, Release(net.queues[e.queue], sim, e), -1)
  {
    var j := e.queue;
    var q := net.queues[j];
    Open(net, sim, j, j);
    ReleaseQueueInv(q, sim.queues[j], sim.clock, PendingDepartures(sim.scheduler, j));
    var st := RecordElapsed(sim.queues[j], sim.clock);
    var occ := st.occupancy - 1;
    var settled := WithQueue(sim, j, ReleaseQueue(q, st));
    WithQueueExcept(net, sim, j, ReleaseQueue(q, st));
    ReleaseSteps(q, sim, e);
    if occ >= q.servers {
      var waiting := sim.nextId - (occ - q.servers + 1);
      StartServiceExcept(net, settled, j, waiting);
      Close(net, StartService(q, settled, waiting, j), j);
      assert Release(q, sim, e) == StartService(q, settled, waiting, j);
    } else {
      Close(net, settled, j);
      assert Release(q, sim, e) == settled;
    }
  }

  /** Release is settling the queue, then starting the next waiting customer
      when there is one. */
  lemma ReleaseSteps(q: Queue, sim: Sim, e: Event)
    requires e.queue < |sim.queues|
    requires sim.queues[e.queue].occupancy >= 1 && sim.queues[e.queue].busy >= 1
    ensures var st := RecordElapsed(sim.queues[e.queue], sim.clock);
            var occ := st.occupancy - 1;
            var settled := WithQueue(sim, e.queue, ReleaseQueue(q, st));
            Release(q, sim, e)
            == if occ >= q.servers then StartService(q, settled, sim.nextId - (occ - q.servers + 1), e.queue) else settled
  {
  }

  lemma RouteKeeps(net: Net, sim: Sim, e: Event)
    requires Consistent(net, sim, -1)
    ensures Consistent(net, Route(net, sim, e), -1)
  {
    var resolved := Resolve(net.routing, e.queue, sim.rng);
    if resolved.0.Node? {
      var j := resolved.0.index;
      var k :| 0 <= k < |net.routing[e.queue]| && net.routing[e.queue][k].0 == resolved.0;
      assert ValidTable(net.routing[e.queue], |net.queues|);
      Open(net, sim, -1, j);
      ScheduledExcept(net, sim, Route(net, sim, e), j, Event(Arrival, sim.clock, e.customer, j));
      Close(net, Route(net, sim, e), j);
    }
  }

  /** The arrival handler keeps the context consistent. */
  lemma OnArrivalKeeps(net: Net, sim: Sim, e: Event)
    requires Invariant(net, sim) && e.queue < |net.queues|
    ensures Invariant(net, OnArrival(net, sim, e))
  {
    AdmitKeeps(net, sim, e);
    ContinueStreamKeeps(net, Admit(net.queues[e.queue], sim, e), e);
  }

  /** The departure handler, applied to a context that still counts the
      departure as pending, finds a customer and a busy server and leaves a
      consistent context. */
  lemma OnDepartureKeeps(net: Net, sim: Sim, e: Event)
    requires Consistent(net, sim, e.queue) && e.queue < |net.queues|
    ensures sim.queues[e.queue].occupancy >= 1 && sim.queues[e.queue].busy >= 1
    ensures Invariant(net, OnDeparture(net, sim, e))
  {
    ReleaseKeeps(net, sim, e);
    RouteKeeps(net, Release(net.queues[e.queue], sim, e), e);
  }

  /** Taking the head event leaves a consistent context in which, if the
      event is a departure, its queue still counts it as pending. */
  lemma PopKeeps(net: Net, sim: Sim)
    requires Invariant(net, sim) && |sim.scheduler| > 0
    ensures var e := sim.scheduler[0];
            && e.queue < |net.queues|
            && Consistent(net, sim.(clock := e.time, scheduler := sim.scheduler[1..]),
                          if e.kind == Departure then e.queue else -1)
  {
    var e := sim.scheduler[0];
    var rest := sim.scheduler[1..];
    forall i | 0 <= i < |net.queues|
      ensures PendingDepartures(sim.scheduler, i)
              == PendingDepartures(rest, i) + (if e.kind == Departure && i == e.queue then 1 else 0)
    {
    }
  }

  // ---------------------------------------------------------------------
  // Time never runs backwards

  /** What keeps time moving forward: every range and every draw is
      non-negative, no pending event lies before the clock, and no queue was
      last updated after it. */
  predicate Timely(net: Net, sim: Sim)
  {
    && NonNegativeTimes(net)
    && NonNegative(sim.rng)
    && NotBefore(sim.scheduler, sim.clock)
    && forall i :: 0 <= i < |sim.queues| ==> sim.queues[i].lastUpdate <= sim.clock
  }

  /** Scheduling an event no earlier than the clock, with a random source
      that is still non-negative, keeps the context timely. */
  lemma ScheduledTimely(net: Net, sim: Sim, r: Sim, ev: Event)
    requires Timely(net, sim) && sim.clock <= ev.time && NonNegative(r.rng)
    requires r.queues == sim.queues && r.clock == sim.clock && r.scheduler == Schedule(sim.scheduler, ev)
    ensures Timely(net, r)
  {
    ScheduleKeeps(sim.scheduler, ev, sim.clock, 0);
  }

  lemma WithQueueTimely(net: Net, sim: Sim, j: nat, st: QueueState)
    requires Timely(net, sim) && j < |sim.queues| && st.lastUpdate <= sim.clock
    ensures Timely(net, WithQueue(sim, j, st))
  {
  }

  lemma StartServiceTimely(net: Net, sim: Sim, j: nat, customer: int)
    requires Timely(net, sim) && j < |net.queues|
    ensures var r := StartService(net.queues[j], sim, customer, j);
            Timely(net, r) && r.clock == sim.clock && r.queues == sim.queues
  {
    var q := net.queues[j];
    assert ValidRange(q.service);
    var service := Uniform(sim.rng, q.service.lo, q.service.hi);
    ScheduledTimely(net, sim, StartService(q, sim, customer, j), Event(Departure, sim.clock + service.0, customer, j));
  }

  lemma AdmitTimely(net: Net, sim: Sim, e: Event)
    requires e.queue < |net.queues| == |sim.queues| && Timely(net, sim)
    ensures var r := Admit(net.queues[e.queue], sim, e);
            Timely(net, r) && r.clock == sim.clock
  {
    var j := e.queue;
    var q := net.queues[j];
    var st := RecordElapsed(sim.queues[j], sim.clock);
    var settled := WithQueue(sim, j, AdmitQueue(q, st));
    WithQueueTimely(net, sim, j, AdmitQueue(q, st));
    if Starts(q, st) {
      StartServiceTimely(net, settled, j, e.customer);
    }
  }

  lemma ContinueStreamTimely(net: Net, sim: Sim, e: Event)
    requires e.queue < |net.queues| == |sim.queues| && Timely(net, sim)
    ensures var r := ContinueStream(net.queues[e.queue], sim, e);
            Timely(net, r) && r.clock == sim.clock
  {
    var q := net.queues[e.queue];
    if q.arrivals.External? && sim.rng.used < sim.budget {
      assert ValidRange(q.arrivals.interval);
      var gap := Uniform(sim.rng, q.arrivals.interval.lo, q.arrivals.interval.hi);
      ScheduledTimely(net, sim, ContinueStream(q, sim, e), Event(Arrival, sim.clock + gap.0, sim.nextId, e.queue));
    }
  }

  lemma ReleaseTimely(net: Net, sim: Sim, e: Event)
    requires e.queue < |net.queues| == |sim.queues| && Timely(net, sim)
    requires sim.queues[e.queue].occupancy >= 1 && sim.queues[e.queue].busy >= 1
    ensures var r := Release(net.queues[e.queue], sim, e);
            Timely(net, r) && r.clock == sim.clock
  {
    var j := e.queue;
    var q := net.queues[j];
    var st := RecordElapsed(sim.queues[j], sim.clock);
    var occ := st.occupancy - 1;
    var settled := WithQueue(sim, j, ReleaseQueue(q, st));
    WithQueueTimely(net, sim, j, ReleaseQueue(q, st));
    if occ >= q.servers {
      StartServiceTimely(net, settled, j, sim.nextId - (occ - q.servers + 1));
    }
  }

  lemma RouteTimely(net: Net, sim: Sim, e: Event)
    requires Timely(net, sim)
    ensures Timely(net, Route(net, sim, e))
  {
    var resolved := Resolve(net.routing, e.queue, sim.rng);
    if resolved.0.Node? {
      ScheduledTimely(net, sim, Route(net, sim, e), Event(Arrival, sim.clock, e.customer, resolved.0.index));
    }
  }

  /** One iteration never moves the clock back and keeps the context
      timely. */
  lemma StepTimely(net: Net, sim: Sim)
    requires Invariant(net, sim) && |sim.scheduler| > 0
    ensures Timely(net, sim) ==> Timely(net, Step(net, sim)) && sim.clock <= Step(net, sim).clock
  {
    if Timely(net, sim) {
      PopKeeps(net, sim);
      var (e, rest) := Pop(sim.scheduler);
      var popped := sim.(clock := e.time, scheduler := rest);
      assert Timely(net, popped);
      if e.kind == Arrival {
        AdmitTimely(net, popped, e);
        ContinueStreamTimely(net, Admit(net.queues[e.queue], popped, e), e);
      } else {
        ReleaseKeeps(net, popped, e);
        ReleaseTimely(net, popped, e);
        RouteTimely(net, Release(net.queues[e.queue], popped, e), e);
      }
    }
  }

  // ---------------------------------------------------------------------
  // The main loop

  /** One iteration of the main loop: take the earliest event, move the
      clock to its time and dispatch it to its handler. */
  function Step(net: Net, sim: Sim): (r: Sim)
    requires Invariant(net, sim) && |sim.scheduler| > 0
    ensures Invariant(net, r)
    ensures r.clock == sim.scheduler[0].time && r.budget == sim.budget
    ensures sim.nextId <= r.nextId && sim.rng.used <= r.rng.used
  {
    PopKeeps(net, sim);
    var (e, rest) := Pop(sim.scheduler);
    var popped := sim.(clock := e.time, scheduler := rest);
    if e.kind == Arrival then
      OnArrivalKeeps(net, popped, e);
      OnArrival(net, popped, e)
    else
      OnDepartureKeeps(net, popped, e);
      OnDeparture(net, popped, e)
  }

  /** The counters of queue `q` after an arrival at time `now`: admitted
      exactly when below capacity, otherwise one more loss; one more busy
      server exactly when a server starts; the elapsed time charged to the
      occupancy held before. */
  predicate ArrivalCounters(q: Queue, before: QueueState, after: QueueState, now: real)
  {
    && (before.occupancy < q.capacity ==> after.occupancy == before.occupancy + 1 && after.lost == before.lost)
    && (before.occupancy >= q.capacity ==> after.occupancy == before.occupancy && after.lost == before.lost + 1)
    && after.busy == before.busy + (if Starts(q, before) then 1 else 0)
    && after.lastUpdate == now
    && after.timeInState == RecordElapsed(before, now).timeInState
  }

  /** The counters of queue `q` after a departure at time `now`: one
      customer fewer, one busy server fewer unless a customer still waits,
      the losses kept, the elapsed time charged to the occupancy held
      before. */
  predicate DepartureCounters(q: Queue, before: QueueState, after: QueueState, now: real)
  {
    && after.occupancy == before.occupancy - 1
    && after.busy == before.busy - (if after.occupancy >= q.servers then 0 else 1)
    && after.lost == before.lost
    && after.lastUpdate == now
    && after.timeInState == RecordElapsed(before, now).timeInState
  }

  /** One iteration takes the head event off the list, moves the clock to
      its time and handles it: an arrival or a departure at the head's
      queue, with exactly that handler's draws, events and counter changes,
      and no other queue touched. */
  lemma StepEvents(net: Net, sim: Sim)
    requires Invariant(net, sim) && |sim.scheduler| > 0
    ensures var e := sim.scheduler[0];
            var popped := sim.(clock := e.time, scheduler := sim.scheduler[1..]);
            var r := Step(net, sim);
            && e.queue < |net.queues|
            && r.clock == e.time
            && (forall i :: 0 <= i < |sim.queues| && i != e.queue ==> r.queues[i] == sim.queues[i])
            && (e.kind == Arrival ==>
                  && ArrivalOutcome(net.queues[e.queue], popped, e, r)
                  && ArrivalCounters(net.queues[e.queue], sim.queues[e.queue], r.queues[e.queue], e.time))
            && (e.kind == Departure ==>
                  && DepartureOutcome(net, popped, e, r)
                  && DepartureCounters(net.queues[e.queue], sim.queues[e.queue], r.queues[e.queue], e.time))
  {
    PopKeeps(net, sim);
    var e := sim.scheduler[0];
    var popped := sim.(clock := e.time, scheduler := sim.scheduler[1..]);
    if e.kind == Arrival {
      assert Step(net, sim) == OnArrival(net, popped, e);
      ArrivalEvents(net, popped, e);
    } else {
      OnDepartureKeeps(net, popped, e);
      assert Step(net, sim) == OnDeparture(net, popped, e);
      DepartureEvents(net, popped, e);
    }
  }

  /** The loop runs while the draw budget is not used up and events are
      pending. */
  predicate Halted(sim: Sim)
  {
    sim.rng.used >= sim.budget || |sim.scheduler| == 0
  }

  /** The final context and the number of iterations taken. */
  datatype Outcome = Outcome(sim: Sim, steps: nat)

  /** The context after `k` iterations of `Step`, stopping early only when no
      event is pending: the reference the loop is measured against. */
  function Iterations(net: Net, sim: Sim, k: nat): (r: Sim)
    requires Invariant(net, sim)
    ensures Invariant(net, r)
    decreases k
  {
    if k == 0 || |sim.scheduler| == 0 then sim else Iterations(net, Step(net, sim), k - 1)
  }

  /** From a context with a pending event, k + 1 iterations are one step
      followed by k iterations. */
  lemma IterationsAfterStep(net: Net, sim: Sim)
    requires Invariant(net, sim) && |sim.scheduler| > 0
    ensures forall k: nat :: Iterations(net, sim, k + 1) == Iterations(net, Step(net, sim), k)
  {
  }

  /** The main loop, bounded by `fuel` iterations. It keeps the invariant,
      stops early only when halted, takes no step from a halted context,
      and never lowers the fresh-id counter or the draw count. */
  function Run(net: Net, sim: Sim, fuel: nat): (r: Outcome)
    requires Invariant(net, sim)
    ensures Invariant(net, r.sim)
    ensures r.steps <= fuel
    ensures r.steps < fuel ==> Halted(r.sim)
    ensures Halted(sim) ==> r == Outcome(sim, 0)
    ensures !Halted(sim) && fuel > 0 ==> r.steps > 0
    ensures sim.nextId <= r.sim.nextId && sim.rng.used <= r.sim.rng.used
    ensures r.sim.budget == sim.budget
    ensures Timely(net, sim) ==> Timely(net, r.sim) && sim.clock <= r.sim.clock
    ensures r.sim == Iterations(net, sim, r.steps)
    ensures forall k :: 0 <= k < r.steps ==> !Halted(Iterations(net, sim, k))
    decreases fuel
  {
    if Halted(sim) || fuel == 0 then Outcome(sim, 0)
    else
      StepTimely(net, sim);
      var r := Run(net, Step(net, sim), fuel - 1);
      IterationsAfterStep(net, sim);
      Outcome(r.sim, r.steps + 1)
  }

  // ---------------------------------------------------------------------
  // Start and end of a run

  /** The context before the loop: the random source initialised, the
      budget chosen, every queue fresh, and, when some queue has external
      arrivals, customer 1 arriving at the first such queue at the lower
      bound of its interarrival range, with the clock set to that time. */
  function Start(net: Net, cfg: RandomConfig): (r: Sim)
    ensures r.rng == Init(cfg) && r.budget == Budget(cfg)
    ensures |r.queues| == |net.queues|
    ensures forall i :: 0 <= i < |r.queues| ==> r.queues[i] == Fresh(net.queues[i].capacity)
    ensures |r.scheduler| <= 1
    ensures |r.scheduler| == 1 ==>
              var k := r.scheduler[0].queue;
              && k == FirstExternal(net.queues) < |net.queues|
              && r.scheduler[0] == Event(Arrival, net.queues[k].arrivals.interval.lo, 1, k)
              && r.clock == r.scheduler[0].time && r.nextId == 2
    ensures |r.scheduler| == 0 ==>
              (forall i :: 0 <= i < |net.queues| ==> net.queues[i].arrivals.InternalOnly?)
              && r.clock == 0.0 && r.nextId == 1
  {
    var queues := seq(|net.queues|, i requires 0 <= i < |net.queues| => Fresh(net.queues[i].capacity));
    var k := FirstExternal(net.queues);
    if k < |net.queues| then
      var t := net.queues[k].arrivals.interval.lo;
      Sim(t, Init(cfg), Budget(cfg), [Event(Arrival, t, 1, k)], 2, queues)
    else
      Sim(0.0, Init(cfg), Budget(cfg), [], 1, queues)
  }

  /** The initial context of a well-formed network is consistent: every
      queue is empty and idle, and the one pending event, if any, is an
      arrival at a queue of the network. */
  lemma StartConsistent(net: Net, cfg: RandomConfig)
    requires WellFormed(net)
    ensures Invariant(net, Start(net, cfg))
  {
  }

  /** The initial context is timely when every range has 0 <= lo <= hi and
      no literal number is negative. */
  lemma StartTimely(net: Net, cfg: RandomConfig)
    requires NonNegativeTimes(net)
    requires forall i :: 0 <= i < |cfg.numbers| ==> 0.0 <= cfg.numbers[i]
    ensures Timely(net, Start(net, cfg))
  {
    InitNonNegative(cfg);
    var k := FirstExternal(net.queues);
    if k < |net.queues| {
      assert ValidRange(net.queues[k].arrivals.interval);
    }
  }

  /** The final flush: every queue charges the time since its last update
      to its current occupancy, at the final clock. */
  function Flush(sim: Sim): (r: Sim)
    ensures r.clock == sim.clock && |r.queues| == |sim.queues|
    ensures forall i :: 0 <= i < |r.queues| ==>
              && r.queues[i].lastUpdate == sim.clock
              && r.queues[i].occupancy == sim.queues[i].occupancy
              && r.queues[i].lost == sim.queues[i].lost
              && Sum(r.queues[i].timeInState)
                 == Sum(sim.queues[i].timeInState) + (sim.clock - sim.queues[i].lastUpdate)
    ensures forall i :: 0 <= i < |r.queues| ==>
              var before := sim.queues[i];
              var h := r.queues[i].timeInState;
              && before.occupancy < |h|
              && h[before.occupancy]
                 == (if before.occupancy < |before.timeInState| then before.timeInState[before.occupancy] else 0.0)
                    + (sim.clock - before.lastUpdate)
              && forall k :: 0 <= k < |h| && k != before.occupancy ==>
                   h[k] == if k < |before.timeInState| then before.timeInState[k] else 0.0
  {
    sim.(queues := seq(|sim.queues|, i requires 0 <= i < |sim.queues| => RecordElapsed(sim.queues[i], sim.clock)))
  }

  /** A whole run of at most `fuel` iterations. Whatever happened, every
      queue's histogram adds up exactly to the final clock, has one entry
      per occupancy level up to the capacity, and no queue ever held more
      customers than its capacity. */
  function Simulate(net: Net, cfg: RandomConfig, fuel: nat): (r: Outcome)
    requires WellFormed(net)
    ensures |r.sim.queues| == |net.queues|
    ensures forall i :: 0 <= i < |net.queues| ==>
              && Sum(r.sim.queues[i].timeInState) == r.sim.clock
              && |r.sim.queues[i].timeInState| == net.queues[i].capacity + 1
              && r.sim.queues[i].occupancy <= net.queues[i].capacity
    ensures r.steps < fuel ==> Halted(r.sim)
    ensures r.steps <= fuel && r.sim == Flush(Iterations(net, Start(net, cfg), r.steps))
  {
    StartConsistent(net, cfg);
    var out := Run(net, Start(net, cfg), fuel);
    FlushAccounts(net, out.sim);
    Outcome(Flush(out.sim), out.steps)
  }

  /** Flushing a consistent context leaves every histogram adding up to the
      clock, with one entry per occupancy level, and no queue above its
      capacity. */
  lemma FlushAccounts(net: Net, sim: Sim)
    requires Invariant(net, sim)
    ensures var r := Flush(sim);
            && |r.queues| == |net.queues|
            && forall i :: 0 <= i < |net.queues| ==>
                 && Sum(r.queues[i].timeInState) == r.clock
                 && |r.queues[i].timeInState| == net.queues[i].capacity + 1
                 && r.queues[i].occupancy <= net.queues[i].capacity
  {
    assert forall i :: 0 <= i < |net.queues| ==>
      QueueInv(net.queues[i], sim.queues[i], PendingDepartures(sim.scheduler, i));
  }
}

=== FILE: network.dfy ===
/** The static network: the queues with their server counts, capacities and
    time ranges, and the routing table that sends a departing customer to
    another queue or out of the system. */
module Network {
  import opened RandomSource

  /** A closed interval [lo, hi] from which times are drawn uniformly. */
  datatype Range = Range(lo: real, hi: real)

  /** Whether a queue receives customers from outside the network, and if so
      the range of the time between two such arrivals. */
  datatype ArrivalSpec = InternalOnly | External(interval: Range)

  /** A queue of the network: c servers, capacity K (customers waiting and in
      service together), the service time range, and its external arrivals. */
  datatype Queue = Queue(servers: nat, capacity: nat, service: Range, arrivals: ArrivalSpec)

  /** A routing destination: leaving the system, or the queue at a position
      of the queue list. */
  datatype Dest = Exit | Node(index: nat)

  /** The destinations of one source queue with their probabilities, in the
      order the routing walk visits them. */
  type Table = seq<(Dest, real)>

  /** Queues are identified by their position in `queues`; `routing` maps a
      source queue to its table. */
  datatype Net = Net(queues: seq<Queue>, routing: map<nat, Table>)

  /** What the loaded configuration guarantees: every queue has at least one
      server (a missing count defaults to one) and every routing destination
      is a queue of the network or the exit. */
  predicate WellFormed(net: Net)
  {
    && (forall i :: 0 <= i < |net.queues| ==> net.queues[i].servers >= 1)
    && (forall src :: src in net.routing ==> ValidTable(net.routing[src], |net.queues|))
  }

  predicate ValidTable(t: Table, n: nat)
  {
    forall k :: 0 <= k < |t| ==> (t[k].0.Node? ==> t[k].0.index < n)
  }

  /** Ranges from which no negative time can be drawn. */
  predicate ValidRange(r: Range)
  {
    0.0 <= r.lo <= r.hi
  }

  predicate NonNegativeTimes(net: Net)
  {
    forall i :: 0 <= i < |net.queues| ==>
      && ValidRange(net.queues[i].service)
      && (net.queues[i].arrivals.External? ==> ValidRange(net.queues[i].arrivals.interval))
  }

  /** The cumulative probability of entries 0 through `k` of a table. */
  function Cumulative(t: Table, k: nat): real
    requires k < |t|
  {
    if k == 0 then t[0].1 else t[0].1 + Cumulative(t[1..], k - 1)
  }

  /** Entry `k` is the first whose cumulative probability reaches the draw
      `u`. */
  predicate FirstCovering(t: Table, u: real, k: int)
  {
    && 0 <= k < |t|
    && u <= Cumulative(t, k)
    && forall j :: 0 <= j < k ==> u > Cumulative(t, j)
  }

  /** No entry's cumulative probability reaches the draw `u`. */
  predicate NoneCovers(t: Table, u: real)
  {
    forall k :: 0 <= k < |t| ==> u > Cumulative(t, k)
  }

  /** The routing walk: visit the entries in order, adding each probability
      to a running total `acc`, and stop at the first entry whose running
      total reaches the draw; if none does, the customer leaves. */
  function Select(t: Table, u: real, acc: real): Dest
  {
    if |t| == 0 then Exit
    else if u <= acc + t[0].1 then t[0].0
    else Select(t[1..], u, acc + t[0].1)
  }

  /** The walk picks the first entry whose cumulative probability reaches
      the draw, and the exit when there is none. */
  lemma {:induction false} SelectIsFirstCovering(t: Table, u: real, acc: real)
    ensures forall k :: FirstCovering(t, u - acc, k) ==> Select(t, u, acc) == t[k].0
    ensures NoneCovers(t, u - acc) ==> Select(t, u, acc) == Exit
    decreases |t|
  {
    if |t| > 0 {
      var rest := t[1..];
      var acc' := acc + t[0].1;
      SelectIsFirstCovering(rest, u, acc');
      forall j | 0 <= j < |rest|
        ensures Cumulative(t, j + 1) == t[0].1 + Cumulative(rest, j)
      {
      }
      forall k | FirstCovering(t, u - acc, k)
        ensures Select(t, u, acc) == t[k].0
      {
        if k > 0 {
          assert u - acc > Cumulative(t, 0);
          forall j | 0 <= j < k - 1
            ensures u - acc' > Cumulative(rest, j)
          {
            assert u - acc > Cumulative(t, j + 1);
          }
          assert FirstCovering(rest, u - acc', k - 1);
        }
      }
      if NoneCovers(t, u - acc) {
        assert u - acc > Cumulative(t, 0);
        forall j | 0 <= j < |rest|
          ensures u - acc' > Cumulative(rest, j)
        {
          assert u - acc > Cumulative(t, j + 1);
        }
      }
    }
  }

  /** The walk always returns the exit or a destination listed in the
      table. */
  lemma {:induction false} SelectListed(t: Table, u: real, acc: real)
    ensures Select(t, u, acc) == Exit || exists k :: 0 <= k < |t| && t[k].0 == Select(t, u, acc)
    decreases |t|
  {
    if |t| > 0 && u > acc + t[0].1 {
      SelectListed(t[1..], u, acc + t[0].1);
      var d := Select(t, u, acc);
      if d != Exit {
        var k :| 0 <= k < |t[1..]| && t[1..][k].0 == d;
        assert t[k + 1].0 == d;
      }
    }
  }

  /** Routing resolution for a customer leaving queue `src`. With no table
      for `src` the customer leaves and no draw is taken. Otherwise exactly
      one draw is taken, and the result is the first destination whose
      cumulative probability reaches it, or the exit if none does. */
  function Resolve(routing: map<nat, Table>, src: nat, g: Rng): (r: (Dest, Rng))
    ensures src !in routing ==> r == (Exit, g)
    ensures src in routing ==>
              var t := routing[src];
              var u := Next(g).0;
              && r.1 == Next(g).1
              && (forall k :: FirstCovering(t, u, k) ==> r.0 == t[k].0)
              && (NoneCovers(t, u) ==> r.0 == Exit)
    ensures r.0 == Exit || (src in routing && exists k :: 0 <= k < |routing[src]| && routing[src][k].0 == r.0)
  {
    if src !in routing then (Exit, g)
    else
      var (u, g') := Next(g);
      SelectIsFirstCovering(routing[src], u, 0.0);
      SelectListed(routing[src], u, 0.0);
      (Select(routing[src], u, 0.0), g')
  }

  /** The position of the first queue with external arrivals, or the number
      of queues if there is none. */
  function FirstExternal(qs: seq<Queue>): (k: nat)
    ensures k <= |qs|
    ensures k < |qs| ==> qs[k].arrivals.External?
    ensures forall j :: 0 <= j < k ==> qs[j].arrivals.InternalOnly?
  {
    if |qs| == 0 then 0
    else if qs[0].arrivals.External? then 0
    else 1 + FirstExternal(qs[1..])
  }
}

=== FILE: random.dfy ===
/** The simulator's supply of uniform draws: a linear congruential generator
    (multiplier 1664525, increment 1013904223, modulus 2^32), optionally
    preceded by a finite list of predefined draws that is either expanded from
    a list of seeds or given literally. Every draw is counted. */
module RandomSource {

  const A: nat := 1664525
  const C: nat := 1013904223
  const M: nat := 0x1_0000_0000
  /** Seed of the default generator, and the value the generator state holds
      when the program starts. */
  const DefaultSeed: nat := 12345
  /** Draw budget used when neither seeds nor literal numbers are configured. */
  const DefaultBudget: nat := 100000

  /** One generator step: s -> (a*s + c) mod 2^32. */
  function Step(s: nat): (r: nat)
    ensures r < M
  {
    (A * s + C) % M
  }

  /** The state reached from `s` after `n` steps. */
  function Iterate(s: nat, n: nat): (r: nat)
    ensures n > 0 ==> r < M
    decreases n
  {
    if n == 0 then s else Iterate(Step(s), n - 1)
  }

  lemma {:induction false} IterateSucc(s: nat, n: nat)
    ensures Iterate(s, n + 1) == Step(Iterate(s, n))
    decreases n
  {
    if n > 0 {
      IterateSucc(Step(s), n - 1);
    }
  }

  /** A generator state read as a draw: state / 2^32. */
  function Fraction(s: nat): (u: real)
    requires s < M
    ensures 0.0 <= u < 1.0
  {
    s as real / M as real
  }

  /** The draws produced by running a fresh generator from `seed` for `n`
      steps, in order. */
  function Expand(seed: nat, n: nat): (r: seq<real>)
    ensures |r| == n
    decreases n
  {
    if n == 0 then [] else [Fraction(Step(seed))] + Expand(Step(seed), n - 1)
  }

  /** Element j of an expansion is the (j+1)-th successor of the seed. */
  lemma {:induction false} ExpandElement(seed: nat, n: nat, j: nat)
    requires j < n
    ensures Expand(seed, n)[j] == Fraction(Iterate(seed, j + 1))
    decreases n
  {
    if j > 0 {
      ExpandElement(Step(seed), n - 1, j - 1);
    }
  }

  /** Seed expansion: the expansions of every seed, concatenated in order. */
  function ExpandAll(seeds: seq<nat>, n: nat): seq<real>
  {
    if |seeds| == 0 then [] else Expand(seeds[0], n) + ExpandAll(seeds[1..], n)
  }

  /** Seed expansion yields exactly perSeed values for every seed. */
  lemma {:induction false} ExpandAllLength(seeds: seq<nat>, n: nat)
    ensures |ExpandAll(seeds, n)| == |seeds| * n
  {
    if |seeds| > 0 {
      ExpandAllLength(seeds[1..], n);
      assert |seeds| * n == n + (|seeds| - 1) * n;
    }
  }

  /** Block k of a seed expansion is exactly the expansion of seeds[k]. */
  lemma ExpandAllBlock(seeds: seq<nat>, n: nat, k: nat)
    requires k < |seeds|
    ensures k * n + n <= |ExpandAll(seeds, n)|
    ensures ExpandAll(seeds, n)[k * n .. k * n + n] == Expand(seeds[k], n)
  {
    BlockStartIsProduct(k, n);
    BlockAt(seeds, n, k);
  }

  /** Where block k starts: k blocks of n values each. */
  function BlockStart(k: nat, n: nat): nat
  {
    if k == 0 then 0 else n + BlockStart(k - 1, n)
  }

  lemma {:induction false} BlockStartIsProduct(k: nat, n: nat)
    ensures BlockStart(k, n) == k * n
  {
    if k > 0 {
      BlockStartIsProduct(k - 1, n);
      MulSucc(k, n);
    }
  }

  /** ExpandAllBlock with the block's start computed by addition only. */
  lemma {:induction false} BlockAt(seeds: seq<nat>, n: nat, k: nat)
    requires k < |seeds|
    ensures BlockStart(k, n) + n <= |ExpandAll(seeds, n)|
    ensures ExpandAll(seeds, n)[BlockStart(k, n) .. BlockStart(k, n) + n] == Expand(seeds[k], n)
    decreases k
  {
    var head := Expand(seeds[0], n);
    var rest := ExpandAll(seeds[1..], n);
    assert ExpandAll(seeds, n) == head + rest;
    if k == 0 {
      assert (head + rest)[..n] == head;
    } else {
      BlockAt(seeds[1..], n, k - 1);
      SliceAfter(head, rest, BlockStart(k - 1, n), BlockStart(k, n), n);
      assert seeds[1..][k - 1] == seeds[k];
    }
  }

  /** A block of length n at offset `off` in `b` sits at `start` in `a + b`
      when `start` is `off` shifted past `a`. */
  lemma SliceAfter(a: seq<real>, b: seq<real>, off: nat, start: nat, n: nat)
    requires start == |a| + off && off + n <= |b|
    ensures start + n <= |a + b|
    ensures (a + b)[start .. start + n] == b[off .. off + n]
  {
  }

  lemma MulSucc(k: nat, n: nat)
    requires k > 0
    ensures k * n == n + (k - 1) * n
  {
  }

  /** Every value of a seed expansion is the generator output k*n + j steps
      into block k, as a fraction in [0, 1). */
  lemma ExpandAllElement(seeds: seq<nat>, n: nat, k: nat, j: nat)
    requires k < |seeds| && j < n
    ensures k * n + j < |ExpandAll(seeds, n)|
    ensures ExpandAll(seeds, n)[k * n + j] == Fraction(Iterate(seeds[k], j + 1))
  {
    var all, start := ExpandAll(seeds, n), BlockStart(k, n);
    BlockStartIsProduct(k, n);
    BlockAt(seeds, n, k);
    ExpandElement(seeds[k], n, j);
    assert all[start + j] == all[start .. start + n][j];
  }

  /** The random-number part of the loaded configuration. `perSeed == 0`
      stands both for an absent count and for a count of zero: the script
      treats both as false. */
  datatype RandomConfig = RandomConfig(seeds: seq<nat>, perSeed: nat, numbers: seq<real>)

  datatype Mode = SeedExpansion | Literal | Generator

  /** Which strategy the initialisation picks, in priority order. */
  function ModeOf(cfg: RandomConfig): Mode
  {
    if |cfg.seeds| > 0 && cfg.perSeed > 0 then SeedExpansion
    else if |cfg.numbers| > 0 then Literal
    else Generator
  }

  /** The state of the random source: the generator state, the count of
      draws so far, and the predefined list with the index of its next
      unused value. An empty list means the generator is in use. */
  datatype Rng = Rng(last: nat, used: nat, predefined: seq<real>, index: nat)

  /** The initialisation of the random source. It runs once, at program
      start, so in the literal mode the generator state still holds its
      initial value, the default seed. */
  function Init(cfg: RandomConfig): (g: Rng)
    ensures g.used == 0 && g.index == 0
    ensures ModeOf(cfg) == SeedExpansion ==>
              |g.predefined| == |cfg.seeds| * cfg.perSeed
              && g.last == Iterate(cfg.seeds[|cfg.seeds| - 1], cfg.perSeed)
    ensures ModeOf(cfg) == Literal ==> g.predefined == cfg.numbers && g.last == DefaultSeed
    ensures ModeOf(cfg) == Generator ==> g.predefined == [] && g.last == DefaultSeed
  {
    match ModeOf(cfg)
    case SeedExpansion =>
      ExpandAllLength(cfg.seeds, cfg.perSeed);
      Rng(Iterate(cfg.seeds[|cfg.seeds| - 1], cfg.perSeed), 0, ExpandAll(cfg.seeds, cfg.perSeed), 0)
    case Literal => Rng(DefaultSeed, 0, cfg.numbers, 0)
    case Generator => Rng(DefaultSeed, 0, [], 0)
  }

  /** The draw budget chosen by the main program. Its first test is only on
      the per-seed count, because the parsed seed list is always present
      (possibly empty). So with seed expansion the budget is the number of
      expanded values, with literal numbers alone it is their count, and with
      neither it is 100000; but a per-seed count with an empty seed list
      yields a budget of zero whatever strategy the draws then come from. */
  function Budget(cfg: RandomConfig): (b: nat)
    ensures ModeOf(cfg) == SeedExpansion ==> b == |Init(cfg).predefined| > 0
    ensures ModeOf(cfg) == Literal && cfg.perSeed == 0 ==> b == |Init(cfg).predefined|
    ensures cfg.perSeed > 0 && |cfg.seeds| == 0 ==> b == 0
    ensures ModeOf(cfg) == Generator && cfg.perSeed == 0 ==> b == DefaultBudget
  {
    if cfg.perSeed > 0 then |cfg.seeds| * cfg.perSeed
    else if |cfg.numbers| > 0 then |cfg.numbers|
    else DefaultBudget
  }

  /** Draws that can never be negative: the generator's are in [0, 1), and
      literal values are unsigned decimal numbers in the configuration. */
  predicate NonNegative(g: Rng)
  {
    forall i :: 0 <= i < |g.predefined| ==> 0.0 <= g.predefined[i]
  }

  /** Every expanded value is a generator output, so lies in [0, 1). */
  lemma {:induction false} ExpandUnit(seed: nat, n: nat)
    ensures forall i :: 0 <= i < n ==> 0.0 <= Expand(seed, n)[i] < 1.0
    decreases n
  {
    if n > 0 {
      ExpandUnit(Step(seed), n - 1);
      var r := Expand(seed, n);
      assert forall i :: 1 <= i < n ==> r[i] == Expand(Step(seed), n - 1)[i - 1];
    }
  }

  lemma {:induction false} ExpandAllUnit(seeds: seq<nat>, n: nat)
    ensures forall i :: 0 <= i < |ExpandAll(seeds, n)| ==> 0.0 <= ExpandAll(seeds, n)[i] < 1.0
  {
    if |seeds| > 0 {
      ExpandUnit(seeds[0], n);
      ExpandAllUnit(seeds[1..], n);
    }
  }

  /** The initial source never yields a negative draw, provided the literal
      numbers are not negative. */
  lemma InitNonNegative(cfg: RandomConfig)
    requires forall i :: 0 <= i < |cfg.numbers| ==> 0.0 <= cfg.numbers[i]
    ensures NonNegative(Init(cfg))
  {
    if ModeOf(cfg) == SeedExpansion {
      ExpandAllUnit(cfg.seeds, cfg.perSeed);
    }
  }

  predicate InList(g: Rng)
  {
    |g.predefined| > 0 && g.index < |g.predefined|
  }

  /** One draw. While the predefined list has unused values they are
      returned in index order; once it runs out it is cleared for good and
      the generator continues from its current state, without reseeding. */
  function Next(g: Rng): (r: (real, Rng))
    ensures r.1.used == g.used + 1
    ensures InList(g) ==>
              r.0 == g.predefined[g.index] && r.1.index == g.index + 1
              && r.1.predefined == g.predefined && r.1.last == g.last
    ensures !InList(g) ==>
              r.1.last == Step(g.last) && r.0 == Fraction(r.1.last)
              && r.1.predefined == [] && r.1.index == g.index
    ensures NonNegative(g) ==> NonNegative(r.1) && 0.0 <= r.0
    ensures g.predefined == [] ==> r.1.predefined == []
  {
    if InList(g) then
      (g.predefined[g.index], g.(index := g.index + 1, used := g.used + 1))
    else
      var s := Step(g.last);
      (Fraction(s), g.(last := s, used := g.used + 1, predefined := []))
  }

  /** A draw scaled to [lo, hi): lo + u * (hi - lo). */
  function Uniform(g: Rng, lo: real, hi: real): (r: (real, Rng))
    ensures r.1 == Next(g).1
    ensures lo <= hi && 0.0 <= Next(g).0 ==> lo <= r.0
    ensures lo <= hi && Next(g).0 <= 1.0 ==> r.0 <= hi
  {
    var u := Next(g).0;
    ScaleBounds(u, lo, hi);
    (lo + u * (hi - lo), Next(g).1)
  }

  /** The scaled value determines the underlying draw: a one-point range
      gives its point, and otherwise undoing the scaling gives the draw
      back. */
  lemma UniformRecoversDraw(g: Rng, lo: real, hi: real)
    ensures Uniform(g, lo, lo).0 == lo
    ensures lo != hi ==> (Uniform(g, lo, hi).0 - lo) / (hi - lo) == Next(g).0
  {
    var u := Next(g).0;
    if lo != hi {
      assert Uniform(g, lo, hi).0 - lo == u * (hi - lo);
    }
  }

  lemma ScaleBounds(u: real, lo: real, hi: real)
    ensures lo <= hi && 0.0 <= u ==> 0.0 <= u * (hi - lo)
    ensures lo <= hi && u <= 1.0 ==> u * (hi - lo) <= hi - lo
  {
    var w := hi - lo;
    if 0.0 <= w {
      if 0.0 <= u {
        ProductNonNegative(u, w);
      }
      if u <= 1.0 {
        ProductNonNegative(1.0 - u, w);
        assert (1.0 - u) * w == w - u * w;
      }
    }
  }

  lemma ProductNonNegative(x: real, y: real)
    requires 0.0 <= x && 0.0 <= y
    ensures 0.0 <= x * y
  {
  }

  /** `k` successive draws, and the state after them. */
  function Draws(g: Rng, k: nat): (r: (seq<real>, Rng))
    ensures |r.0| == k
    ensures r.1.used == g.used + k
    decreases k
  {
    if k == 0 then ([], g)
    else
      var (u, g') := Next(g);
      var (us, g'') := Draws(g', k - 1);
      ([u] + us, g'')
  }

  /** The remaining predefined values come out in index order, and the draw
      after them continues the generator from the state it held, with the
      list cleared. */
  lemma {:induction false} ExhaustionFallsBack(g: Rng)
    requires |g.predefined| > 0 && g.index <= |g.predefined|
    ensures Draws(g, |g.predefined| - g.index + 1).0
              == g.predefined[g.index..] + [Fraction(Step(g.last))]
    ensures Draws(g, |g.predefined| - g.index + 1).1.predefined == []
    ensures Draws(g, |g.predefined| - g.index + 1).1.last == Step(g.last)
    decreases |g.predefined| - g.index
  {
    var k := |g.predefined| - g.index + 1;
    var (u, g') := Next(g);
    if g.index < |g.predefined| {
      ExhaustionFallsBack(g');
      assert g.predefined[g.index..] == [u] + g'.predefined[g'.index..];
    } else {
      assert Draws(g', 0).0 == [];
    }
  }

  /** Once the generator is in use, draw j is the (j+1)-th successor of the
      current state. */
  lemma {:induction false} GeneratorDraws(g: Rng, k: nat, j: nat)
    requires g.predefined == [] && j < k
    ensures Draws(g, k).0[j] == Fraction(Iterate(g.last, j + 1))
    decreases k
  {
    var (u, g') := Next(g);
    if j > 0 {
      GeneratorDraws(g', k - 1, j - 1);
      assert Iterate(g.last, j + 1) == Iterate(g'.last, j);
    }
  }

  /** With literal numbers, the draw after the last one is the default
      generator's first output, as the generator was never reseeded. */
  lemma LiteralFallback(cfg: RandomConfig)
    requires ModeOf(cfg) == Literal
    ensures Draws(Init(cfg), |cfg.numbers| + 1).0 == cfg.numbers + [Fraction(Step(DefaultSeed))]
  {
    ExhaustionFallsBack(Init(cfg));
  }

  /** With seed expansion, the draw after the expanded values continues the
      last seed's own sequence. */
  lemma SeedFallback(cfg: RandomConfig)
    requires ModeOf(cfg) == SeedExpansion
    ensures Draws(Init(cfg), |cfg.seeds| * cfg.perSeed + 1).0
              == ExpandAll(cfg.seeds, cfg.perSeed)
                 + [Fraction(Iterate(cfg.seeds[|cfg.seeds| - 1], cfg.perSeed + 1))]
  {
    var g := Init(cfg);
    ExhaustionFallsBack(g);
    IterateSucc(cfg.seeds[|cfg.seeds| - 1], cfg.perSeed);
  }

  lemma ExpandAllSuffix(seeds: seq<nat>, n: nat, k: nat)
    requires k < |seeds|
    ensures ExpandAll(seeds[k..], n) == Expand(seeds[k], n) + ExpandAll(seeds[k + 1..], n)
  {
    assert seeds[k..][1..] == seeds[k + 1..];
  }

  /** The inner loop of seed expansion: restart the generator at `seed` and
      append its next `n` outputs. */
  method ExpandSeed(seed: nat, n: nat) returns (block: seq<real>, last: nat)
    ensures block == Expand(seed, n)
    ensures last == Iterate(seed, n)
  {
    last := seed;
    block := [];
    var i := 0;
    while i < n
      invariant 0 <= i <= n
      invariant last == Iterate(seed, i)
      invariant block + Expand(last, n - i) == Expand(seed, n)
    {
      IterateSucc(seed, i);
      assert Expand(last, n - i) == [Fraction(Step(last))] + Expand(Step(last), n - (i + 1));
      block := block + [Fraction(Step(last))];
      last := Step(last);
      i := i + 1;
    }
  }

  /** Seed expansion as the script writes it: a loop over the seeds, each
      restarting the generator, with the outputs appended to one list. */
  method ExpandSeeds(seeds: seq<nat>, n: nat) returns (values: seq<real>, last: nat)
    requires |seeds| > 0
    ensures values == ExpandAll(seeds, n)
    ensures last == Iterate(seeds[|seeds| - 1], n)
  {
    values := [];
    last := 0;
    var k := 0;
    while k < |seeds|
      invariant 0 <= k <= |seeds|
      invariant values + ExpandAll(seeds[k..], n) == ExpandAll(seeds, n)
      invariant k > 0 ==> last == Iterate(seeds[k - 1], n)
    {
      var block;
      block, last := ExpandSeed(seeds[k], n);
      ExpandAllSuffix(seeds, n, k);
      assert (values + block) + ExpandAll(seeds[k + 1..], n) == values + ExpandAll(seeds[k..], n);
      values := values + block;
      k := k + 1;
    }
    assert seeds[k..] == [];
  }
}

=== FILE: scheduler.dfy ===
/** The event scheduler: a list of pending events kept in non-decreasing time
    order. Scheduling appends the event and stably re-sorts the whole list by
    time, so among events with equal times the earlier scheduled comes first;
    taking the next event removes the head. */
module Scheduler {

  datatype Kind = Arrival | Departure

  /** A pending event: its kind, its time, the customer it concerns and the
      position of its queue in the network's queue list. */
  datatype Event = Event(kind: Kind, time: real, customer: int, queue: nat)

  predicate Sorted(s: seq<Event>)
  {
    forall i, j :: 0 <= i < j < |s| ==> s[i].time <= s[j].time
  }

  /** The number of leading events whose time is at most `t`: where a stable
      sort places a new event with time `t`. */
  function InsertionPoint(s: seq<Event>, t: real): (k: nat)
    ensures k <= |s|
    ensures forall i :: 0 <= i < k ==> s[i].time <= t
    ensures k < |s| ==> s[k].time > t
  {
    if |s| == 0 || s[0].time > t then 0 else 1 + InsertionPoint(s[1..], t)
  }

  /** In a sorted list every event from the insertion point on is later
      than `t`. */
  lemma InsertionPointSplits(s: seq<Event>, t: real)
    requires Sorted(s)
    ensures forall i :: InsertionPoint(s, t) <= i < |s| ==> s[i].time > t
  {
    var k := InsertionPoint(s, t);
    if k < |s| {
      forall i | k <= i < |s|
        ensures s[i].time > t
      {
        assert s[k].time <= s[i].time;
      }
    }
  }

  /** Places `e` after the leading events with time at most its own. */
  function Insert(s: seq<Event>, e: Event): seq<Event>
    decreases |s|
  {
    if |s| == 0 || s[0].time > e.time then [e] + s else [s[0]] + Insert(s[1..], e)
  }

  /** Insertion splits the list at the insertion point. */
  lemma {:induction false} InsertSplits(s: seq<Event>, e: Event)
    ensures var k := InsertionPoint(s, e.time);
            Insert(s, e) == s[..k] + [e] + s[k..]
    decreases |s|
  {
    if |s| > 0 && s[0].time <= e.time {
      InsertSplits(s[1..], e);
      var k := InsertionPoint(s[1..], e.time);
      assert [s[0]] + s[1..][..k] == s[..k + 1];
      assert s[1..][k..] == s[k + 1..];
    }
  }

  /** Insertion adds exactly `e` and keeps a sorted list sorted. */
  lemma InsertSpec(s: seq<Event>, e: Event)
    ensures multiset(Insert(s, e)) == multiset(s) + multiset{e}
    ensures Sorted(s) ==> Sorted(Insert(s, e))
  {
    var k := InsertionPoint(s, e.time);
    InsertSplits(s, e);
    assert s == s[..k] + s[k..];
    if Sorted(s) {
      InsertKeepsSorted(s, e);
    }
  }

  lemma InsertKeepsSorted(s: seq<Event>, e: Event)
    requires Sorted(s)
    ensures Sorted(Insert(s, e))
  {
    var k := InsertionPoint(s, e.time);
    var r := Insert(s, e);
    InsertSplits(s, e);
    assert forall i :: 0 <= i < |r| ==> r[i] == if i < k then s[i] else if i == k then e else s[i - 1];
    InsertionPointSplits(s, e.time);
    forall i, j | 0 <= i < j < |r|
      ensures r[i].time <= r[j].time
    {
      if j < k || i > k {
      } else if i == k {
        assert s[j - 1].time > e.time;
      } else if j == k {
        assert s[i].time <= e.time;
      } else {
        assert s[i].time <= s[j - 1].time;
      }
    }
  }

  /** A stable sort by time (insertion sort: each event in turn is
      scheduled into the sorted list of those before it). The script's array
      sort is stable, and every stable sort yields this same list. */
  function SortByTime(xs: seq<Event>): seq<Event>
    decreases |xs|, 0
  {
    if |xs| == 0 then [] else Schedule(xs[..|xs| - 1], xs[|xs| - 1])
  }

  /** The sort yields a sorted permutation of its input. */
  lemma {:induction false} SortByTimeSpec(xs: seq<Event>)
    ensures Sorted(SortByTime(xs))
    ensures multiset(SortByTime(xs)) == multiset(xs)
    decreases |xs|
  {
    if |xs| > 0 {
      var init := xs[..|xs| - 1];
      SortByTimeSpec(init);
      InsertSpec(SortByTime(init), xs[|xs| - 1]);
      assert xs == init + [xs[|xs| - 1]];
    }
  }

  /** Sorting an already sorted list changes nothing: the sort is stable. */
  lemma {:induction false} SortSortedIsIdentity(s: seq<Event>)
    requires Sorted(s)
    ensures SortByTime(s) == s
    decreases |s|
  {
    if |s| > 0 {
      var init := s[..|s| - 1];
      assert Sorted(init);
      SortSortedIsIdentity(init);
      assert InsertionPoint(init, s[|s| - 1].time) == |init| by {
        InsertionPointAll(init, s[|s| - 1].time);
      }
      InsertSplits(init, s[|s| - 1]);
      assert init[..|init|] + [s[|s| - 1]] + init[|init|..] == s;
    }
  }

  lemma {:induction false} InsertionPointAll(s: seq<Event>, t: real)
    requires forall i :: 0 <= i < |s| ==> s[i].time <= t
    ensures InsertionPoint(s, t) == |s|
    decreases |s|
  {
    if |s| > 0 {
      InsertionPointAll(s[1..], t);
    }
  }

  /** Scheduling: append the event and stably re-sort by time, which is
      inserting it into the sorted old list (`ScheduleAppends`). */
  function Schedule(s: seq<Event>, e: Event): seq<Event>
    decreases |s|, 1
  {
    Insert(SortByTime(s), e)
  }

  /** Scheduling is the sort of the list with the event appended: the
      script's push then sort. This only unfolds the two definitions; that
      the result is sorted, and that the sort is stable, is stated by
      `ScheduleSpec` and `SortSortedIsIdentity`. */
  lemma ScheduleAppends(s: seq<Event>, e: Event)
    ensures Schedule(s, e) == SortByTime(s + [e])
  {
    assert (s + [e])[..|s|] == s;
  }

  /** The result of scheduling is sorted and holds exactly the old events
      plus the new one; when the old list was sorted, the new event lands
      right after every event whose time is at most its own (so equal times
      leave in scheduling order), and the old events keep their order. */
  lemma ScheduleSpec(s: seq<Event>, e: Event)
    ensures var r := Schedule(s, e);
            && Sorted(r)
            && multiset(r) == multiset(s) + multiset{e}
            && (forall x :: x in r <==> x in s || x == e)
            && (Sorted(s) ==>
                  var k := InsertionPoint(s, e.time);
                  && r == s[..k] + [e] + s[k..]
                  && (forall i :: 0 <= i < k ==> s[i].time <= e.time)
                  && (forall i :: k <= i < |s| ==> s[i].time > e.time))
  {
    var r := Schedule(s, e);
    ScheduleAppends(s, e);
    SortByTimeSpec(s + [e]);
    assert forall x :: x in r <==> x in multiset(s) + multiset{e};
    SortedAppendInserts(s, e);
    InsertSplits(s, e);
    if Sorted(s) {
      InsertionPointSplits(s, e.time);
    }
  }

  lemma ScheduleSorted(s: seq<Event>, e: Event)
    ensures Sorted(Schedule(s, e))
  {
    ScheduleAppends(s, e);
    SortByTimeSpec(s + [e]);
  }

  lemma ScheduleCounts(s: seq<Event>, e: Event)
    ensures multiset(Schedule(s, e)) == multiset(s) + multiset{e}
  {
    ScheduleAppends(s, e);
    SortByTimeSpec(s + [e]);
  }

  /** A list that is `s` with `e` scheduled when `adds`, and `s` itself
      otherwise, holds the events of `s` plus `e` exactly when `adds`. */
  lemma ScheduledEvents(s: seq<Event>, r: seq<Event>, e: Event, adds: bool)
    requires r == if adds then Schedule(s, e) else s
    ensures multiset(r) == multiset(s) + (if adds then multiset{e} else multiset{})
  {
    if adds {
      ScheduleCounts(s, e);
    }
  }

  lemma SortedAppendInserts(s: seq<Event>, e: Event)
    ensures Sorted(s) ==> Schedule(s, e) == Insert(s, e)
  {
    if Sorted(s) {
      SortSortedIsIdentity(s);
    }
  }

  /** Taking the next event: the head, which is the earliest, and the rest
      unchanged. */
  function Pop(s: seq<Event>): (r: (Event, seq<Event>))
    requires |s| > 0
    ensures [r.0] + r.1 == s
    ensures Sorted(s) ==> Sorted(r.1) && forall i :: 0 <= i < |r.1| ==> r.0.time <= r.1[i].time
  {
    (s[0], s[1..])
  }

  predicate IsDepartureAt(e: Event, q: nat)
  {
    e.kind == Departure && e.queue == q
  }

  /** The number of pending departures of queue `q`. */
  function PendingDepartures(s: seq<Event>, q: nat): (n: nat)
    ensures n <= |s|
  {
    if |s| == 0 then 0
    else (if IsDepartureAt(s[0], q) then 1 else 0) + PendingDepartures(s[1..], q)
  }

  lemma {:induction false} PendingDeparturesAppend(a: seq<Event>, b: seq<Event>, q: nat)
    ensures PendingDepartures(a + b, q) == PendingDepartures(a, q) + PendingDepartures(b, q)
    decreases |a|
  {
    if |a| > 0 {
      PendingDeparturesAppend(a[1..], b, q);
      assert (a + b)[1..] == a[1..] + b;
    } else {
      assert a + b == b;
    }
  }

  lemma PendingDeparturesSplice(front: seq<Event>, e: Event, back: seq<Event>, q: nat)
    ensures PendingDepartures(front + [e] + back, q)
            == PendingDepartures(front + back, q) + (if IsDepartureAt(e, q) then 1 else 0)
  {
    PendingDeparturesAppend(front + [e], back, q);
    PendingDeparturesAppend(front, [e], q);
    PendingDeparturesAppend(front, back, q);
    assert PendingDepartures([e], q) == if IsDepartureAt(e, q) then 1 else 0;
  }

  /** Scheduling an event adds one pending departure of `q` exactly when it
      is one, and none otherwise. */
  lemma PendingDeparturesSchedule(s: seq<Event>, e: Event, q: nat)
    requires Sorted(s)
    ensures PendingDepartures(Schedule(s, e), q)
            == PendingDepartures(s, q) + (if IsDepartureAt(e, q) then 1 else 0)
  {
    var k := InsertionPoint(s, e.time);
    ScheduleSpec(s, e);
    PendingDeparturesSplice(s[..k], e, s[k..], q);
    assert s[..k] + s[k..] == s;
  }

  /** Every pending event is at or after time `t`. */
  predicate NotBefore(s: seq<Event>, t: real)
  {
    forall i :: 0 <= i < |s| ==> t <= s[i].time
  }

  /** Every pending event names one of the first `n` queues. */
  predicate Targets(s: seq<Event>, n: nat)
  {
    forall i :: 0 <= i < |s| ==> s[i].queue < n
  }

  lemma ScheduleKeeps(s: seq<Event>, e: Event, t: real, n: nat)
    ensures NotBefore(s, t) && t <= e.time ==> NotBefore(Schedule(s, e), t)
    ensures Targets(s, n) && e.queue < n ==> Targets(Schedule(s, e), n)
  {
    var r := Schedule(s, e);
    ScheduleSpec(s, e);
    forall i | 0 <= i < |r|
      ensures r[i] in s || r[i] == e
    {
      assert r[i] in r;
    }
  }
}

=== FILE: statistics.dfy ===
/** Per-queue state and its time-weighted statistics: how long the queue has
    spent at each occupancy level, and how many arrivals it has turned
    away. */
module Statistics {

  /** The state of one queue together with its statistics: the number of
      customers present (waiting or in service), the number of busy servers,
      the clock value of the last statistics update, the time spent at each
      occupancy level, and the number of lost customers. */
  datatype QueueState = QueueState(
    occupancy: nat,
    busy: nat,
    lastUpdate: real,
    timeInState: seq<real>,
    lost: nat)

  function Sum(h: seq<real>): real
  {
    if |h| == 0 then 0.0 else h[0] + Sum(h[1..])
  }

  lemma {:induction false} SumAppend(a: seq<real>, b: seq<real>)
    ensures Sum(a + b) == Sum(a) + Sum(b)
    decreases |a|
  {
    if |a| == 0 {
      assert a + b == b;
    } else {
      SumAppend(a[1..], b);
      assert (a + b)[1..] == a[1..] + b;
    }
  }

  /** Replacing one entry changes the sum by the difference. */
  lemma {:induction false} SumUpdate(h: seq<real>, i: nat, v: real)
    requires i < |h|
    ensures Sum(h[i := v]) == Sum(h) - h[i] + v
    decreases |h|
  {
    if i > 0 {
      SumUpdate(h[1..], i - 1, v);
      assert h[i := v][1..] == h[1..][i - 1 := v];
    }
  }

  function Zeros(n: nat): (r: seq<real>)
    ensures |r| == n
    ensures forall i :: 0 <= i < n ==> r[i] == 0.0
  {
    seq(n, _ => 0.0)
  }

  lemma {:induction false} SumZeros(n: nat)
    ensures Sum(Zeros(n)) == 0.0
    decreases n
  {
    if n > 0 {
      SumZeros(n - 1);
      assert Zeros(n)[1..] == Zeros(n - 1);
    }
  }

  /** The histogram extended with zero entries until index `occ` exists. */
  function Grow(h: seq<real>, occ: nat): (r: seq<real>)
    ensures |r| == if occ < |h| then |h| else occ + 1
    ensures forall i :: 0 <= i < |r| ==> r[i] == if i < |h| then h[i] else 0.0
    ensures Sum(r) == Sum(h)
  {
    if occ < |h| then h
    else
      SumAppend(h, Zeros(occ + 1 - |h|));
      SumZeros(occ + 1 - |h|);
      h + Zeros(occ + 1 - |h|)
  }

  /** Histogram growth as the script writes it: push zeros while the
      occupancy is not a valid index. */
  method GrowHistogram(h: seq<real>, occ: nat) returns (r: seq<real>)
    ensures r == Grow(h, occ)
  {
    r := h;
    while occ >= |r|
      invariant |h| <= |r| <= if occ < |h| then |h| else occ + 1
      invariant r == h + Zeros(|r| - |h|)
      decreases occ + 1 - |r|
    {
      r := r + [0.0];
    }
  }

  /** A queue before the run: empty, idle, last updated at time zero, with
      a histogram of capacity + 1 zero entries. */
  function Fresh(capacity: nat): (st: QueueState)
    ensures st.occupancy == 0 && st.busy == 0 && st.lost == 0
    ensures |st.timeInState| == capacity + 1
    ensures Sum(st.timeInState) == st.lastUpdate == 0.0
  {
    SumZeros(capacity + 1);
    QueueState(0, 0, 0.0, Zeros(capacity + 1), 0)
  }

  /** Charges the time elapsed since the last update to the occupancy held
      during it, growing the histogram first if needed, and moves the
      last-update time to `now`. Only that one entry changes, and the total
      grows by exactly the elapsed time. */
  function RecordElapsed(st: QueueState, now: real): (r: QueueState)
    ensures r.occupancy == st.occupancy && r.busy == st.busy && r.lost == st.lost
    ensures r.lastUpdate == now
    ensures |st.timeInState| <= |r.timeInState| && st.occupancy < |r.timeInState|
    ensures st.occupancy < |st.timeInState| ==> |r.timeInState| == |st.timeInState|
    ensures forall i :: 0 <= i < |r.timeInState| && i != st.occupancy ==>
              r.timeInState[i] == if i < |st.timeInState| then st.timeInState[i] else 0.0
    ensures r.timeInState[st.occupancy]
            == (if st.occupancy < |st.timeInState| then st.timeInState[st.occupancy] else 0.0)
               + (now - st.lastUpdate)
    ensures Sum(r.timeInState) == Sum(st.timeInState) + (now - st.lastUpdate)
  {
    var h := Grow(st.timeInState, st.occupancy);
    var v := h[st.occupancy] + (now - st.lastUpdate);
    SumUpdate(h, st.occupancy, v);
    st.(timeInState := h[st.occupancy := v], lastUpdate := now)
  }
}
